=== FILE: README.md ===
# Find a Firefighter I class near you — verified model

The repository collects the Firefighter I (FIRE-101) course offerings of the
Maryland Fire and Rescue Institute (MFRI) and draws them on a map. It has three
parts, and this project models each one:

- **The detail-page scraper (`all_classes.py`).** It probes
  `https://www.mfri.org/course/msfs/FIRE/101/<code>/<year>/` for a range of
  section codes and years. A page counts as active when it answers 200, was not
  redirected to the generic search page, and prints a `Start:` date. The
  scraper reads the course details from each active page into a record and
  upserts the record into a dictionary keyed by course id. The dataset is saved
  sorted by id.
- **The listing scraper (`classes.py`).** It reads the same kind of record out
  of every item of the course-search listing page.
- **The map generator (`generate_map.py`).** It colours active classes by start
  month and builds a legend. It collects the locations that only have past
  classes, with their start dates sorted newest first.

The model works on strings and on values already taken from the page. The
regular-expression captures and DOM lookups are inputs. Everything the code
does with those values is modelled in Dafny:

- date normalisation;
- whitespace and line clean-up;
- day and time extraction;
- the coordinator-name rewrite;
- URL token checks;
- the location join;
- the dictionary's upsert and insertion order;
- the save order;
- the colour scheme;
- the grouping and sorting of inactive locations.

Modules:

| module | what it holds |
|---|---|
| `Wrappers` | `Option` and `Result` |
| `Strings` | Python's `str.strip`, `split`, `join`, `splitlines`, `replace`, `lower` and string ordering, with their laws |
| `Records` | the course record and the location table's fields |
| `Dates` | `format_date_mdy`, with `strptime`'s `%B %d, %Y` and `%m-%d-%Y` |
| `Sorting`, `Searching` | a stable insertion sort and first/last-match scans, with their specifications |
| `Locations` | the location lookup table and the longest-substring join on location names |
| `DetailPage` | `get_text_from_element_after_heading`, the `parse_individual_course_page_details` rules and `is_page_active_candidate` |
| `Dataset` | `save_data`'s order and the `all_course_data_dict` store, as a class updated in place |
| `Listing` | `extract_text_after_colon` and `extract_courses` |
| `MapRender` | `get_month_color`, the marker colour, the legend entries and the inactive-location grouping of `generate_map.py` |

## Model

| member | source | states |
|---|---|---|
| Dates.DaysInMonth | all_classes.py:43-48 | a month has 28 to 31 days, and 29 exactly for February of a leap year (the calendar `strptime` checks against) |
| Dates.Pad2 | all_classes.py:45 | the two-digit `%m`/`%d` rendering reads back as the same number |
| Dates.Pad4 | all_classes.py:45 | the four-digit `%Y` rendering reads back as the same number |
| Dates.MakeDate | all_classes.py:43-48 | a date is built exactly when year, month and day are present and form a real calendar date |
| Dates.ParseNumericDate | all_classes.py:48 | every date parsed from `%m-%d-%Y` is a valid calendar date |
| Dates.LeadingMonth | all_classes.py:43 | the `%B` match finds a month whose full name starts the text, or reports that no month name does |
| Dates.ParseMonthNameDate | all_classes.py:43 | every date parsed from `%B %d, %Y` is a valid calendar date |
| Dates.ParseDayAndYear | all_classes.py:43 | the day and year after the month name give a valid date in that month |
| Dates.CommaSpacing | all_classes.py:42 | text without a comma is unchanged, and a leading non-space character is kept |
| Dates.CommaSpacingSpaced | all_classes.py:42 | after the rewrite every comma is followed by a space |
| Dates.FormatMdy | all_classes.py:45 | the MM-DD-YYYY output has dashes at positions 2 and 5 and parses back to the same date |
| Dates.FormatDateMdy | all_classes.py:38-52 | "" and "N/A" give "N/A"; otherwise the result is the input or a canonical MM-DD-YYYY date |
| Dates.FormatByMonthName | all_classes.py:42-45 | when the comma-spaced input parses as `%B %d, %Y`, the result is that date in MM-DD-YYYY |
| Dates.FormatByNumber | all_classes.py:46-49 | when only `%m-%d-%Y` parses, the result is that date in MM-DD-YYYY |
| Dates.FormatVerbatim | all_classes.py:50-52 | when neither format parses, the input comes back unchanged |
| Dates.LongFormNormalised | all_classes.py:38-52 | "September 4 , 2025", with any spacing around the comma, becomes the canonical form of that date |
| Dates.NumericFormNormalised | all_classes.py:46-49 | "9-4-2025" is zero-padded to the canonical form of that date |
| Dates.InvalidDayUnchanged | all_classes.py:50-52 | a long-form date with a day past the month's end is returned verbatim |
| Dates.InvalidLongFormUnparsed | all_classes.py:43-48 | such a date parses in neither format |
| Dates.LongFormDate | all_classes.py:43 | `%B %d, %Y` reads the month's full name, a one- or two-digit day and the year back into the date |
| Dates.FormatDateMdyIdempotent | all_classes.py:38-52 | normalising an already normalised date changes nothing |
| Dates.NameAtUnique | all_classes.py:43 | at most one month's full name starts any text |
| Strings.Strip | all_classes.py:42 | `str.strip` leaves no leading or trailing whitespace and never lengthens |
| Strings.JoinSplit | all_classes.py:430-431 | `str.split` loses nothing: joining its pieces with the separator gives the text back |
| Strings.SplitJoin | classes.py:100-107 | splitting a join on a separator absent from the pieces gives the pieces back |
| Strings.LexLeTotal | all_classes.py:64-66 | Python's string order is total |
| Strings.LexLeTransitive | all_classes.py:64-66 | Python's string order is transitive |
| Strings.LexLeAntisymmetric | all_classes.py:64-66 | Python's string order is antisymmetric |
| Sorting.SortBy | all_classes.py:64-66 | sorting permutes the list |
| Sorting.SortBySorted | all_classes.py:64-66 | under a total preorder the sorted list is ordered |
| Sorting.InsertTies | all_classes.py:64-66 | an inserted element goes ahead of every element that compares equal to it, and the others that compare equal keep their order |
| Sorting.SortByStable | all_classes.py:64-66 | the sort is stable: the elements that compare equal to any given one appear in their input order, as with Python's `sorted` |
| Searching.FirstSomeSpec | classes.py:280-292 | the first-match scan returns the first hit, and returns nothing exactly when there is no hit |
| Searching.LastSomeSpec | classes.py:171-222 | the last-match scan returns the last hit, and returns nothing exactly when there is no hit |
| Locations.LookupOf | all_classes.py:490-495 | the lookup holds only non-empty names, each once |
| Locations.BuildLookup | all_classes.py:490-495 | the loop builds exactly the lookup the table defines |
| Locations.LookupCovers | all_classes.py:490-495 | every entry with a non-empty name has that name in the lookup |
| Locations.LookupSound | all_classes.py:490-495 | every lookup row comes from the first table entry carrying its name |
| Locations.LookupFirstWins | all_classes.py:490-495 | when a name repeats in the table, the first entry's fields are the ones kept |
| Locations.BestIndex | all_classes.py:341-352 | the chosen row is a row of the lookup |
| Locations.BestIndexSpec | all_classes.py:341-352 | nothing is chosen exactly when no lookup name occurs in the location as a substring; otherwise the chosen name occurs, is the longest that occurs, and is the first of that length |
| Locations.BestMatch | all_classes.py:341-370 | the join loop returns the fields of that longest matching row, or none |
| DetailPage.SectionText | all_classes.py:71-94 | the section text is the joined, line-split, stripped and blank-free text of the parts, holds no line break and no non-breaking space, and is stripped |
| DetailPage.NonBlankShape | all_classes.py:88-93 | every kept line is non-empty, stripped and free of line breaks |
| DetailPage.NormalisedShape | all_classes.py:88-94 | normalised text has no line break and no non-breaking space, and is stripped |
| DetailPage.NormaliseIdempotent | all_classes.py:88-94 | normalising twice is normalising once |
| DetailPage.TimeCutLeftmost | all_classes.py:272-276 | the time-suffix search stops at the leftmost place a clock time starts |
| DetailPage.TimeCutAt | all_classes.py:272-276 | the cut is at any position where a time starts with none before it |
| DetailPage.CutTrailingTime | all_classes.py:272-276 | the remaining day text is stripped |
| DetailPage.CutAt | all_classes.py:272-276 | cutting at the first time leaves the stripped text before it |
| DetailPage.CutBeforeTime | all_classes.py:272-276 | "Mon/Wed  6:30 PM - …" keeps exactly the day text before the time |
| DetailPage.DaysOf | all_classes.py:264-282 | the days are "N/A" or name a day abbreviation |
| DetailPage.DaysBeforeTime | all_classes.py:264-282 | days text followed by a time keeps the days text |
| DetailPage.FirstClassTime | all_classes.py:247-254 | "N/A" exactly when there is no start time; otherwise the start time, followed by " - " and the end time when there is one |
| DetailPage.CoordinatorPrefixEnd | all_classes.py:390-395 | the optional "the MFRI " prefix ends inside the text, before a non-space character |
| DetailPage.SuffixStartLeftmost | all_classes.py:390-395 | the suffix search stops at the leftmost "Office"/"Regional Training Center" suffix that runs to the end |
| DetailPage.SuffixStartAt | all_classes.py:390-395 | the suffix is found at any position where one starts with none before it |
| DetailPage.CleanCoordinator | all_classes.py:390-408 | the cleaned coordinator is stripped and no longer than the input |
| DetailPage.CleanPlainName | all_classes.py:390-408 | a single-word name is unchanged |
| DetailPage.CleanOffice | all_classes.py:390-408 | "the MFRI X Office" becomes X |
| DetailPage.CleanTrainingCenter | all_classes.py:390-408 | "the MFRI X Regional Training Center" becomes X |
| DetailPage.UrlTokens | all_classes.py:432-436 | the code and year are read from the path exactly when a `/` remains after trimming trailing slashes |
| DetailPage.CourseUrlTokens | all_classes.py:432-436 | the probe reads back the code and year of a template URL |
| DetailPage.SlashUrlTokens | all_classes.py:432-436 | the probe reads back the last two path segments of a URL ending in a slash |
| DetailPage.ActiveWitness | all_classes.py:30-32 | text containing "Start:", spaces, a month name, a one- or two-digit day and ", YYYY" is active content |
| DetailPage.Probe | all_classes.py:429-466 | a URL with no `/` left after trimming raises the index error; otherwise the page is active exactly when the request answered 200, was not sent from a template URL to the generic search page, lands on a URL naming the probed code and year, and has a start date |
| DetailPage.ProbeCourseUrl | all_classes.py:429-466 | a template URL never raises, and a failed request or a non-200 answer is never active |
| DetailPage.ScrapedDateNormal | all_classes.py:197-213 | a stored date is "N/A" when nothing was captured, and otherwise "N/A", the captured text or a canonical MM-DD-YYYY date; normalising it again changes nothing |
| DetailPage.Schedule | all_classes.py:197-294 | the days are `DaysOf` the days section, or "N/A" without one; the time joins the start time with the combined, or else the later, end time; when that gives "N/A" and there is a days section, its time range, else its single time, is used instead. A start time always leads the class time |
| DetailPage.PlaceOf | all_classes.py:325-370 | the location is the stripped section text unless it is missing or "N/A", else the paragraph without its label, else "N/A"; its fields are those of the longest lookup name it contains, or none, and any fields found belong to a name the location contains |
| DetailPage.AssembleDetails | all_classes.py:100-422 | no record exactly when the course id is "N/A"; otherwise every field is set: the id, course URL, register link, hours and run time as given; the four dates through `format_date_mdy`; days and time as `Schedule` states; location and fields as `PlaceOf` states; the cleaned coordinator and the stripped `mailto:` address, each "N/A" when empty |
| Dataset.SaveOrder | all_classes.py:63-66 | the saved list is a permutation of the data |
| Dataset.SaveOrderSorted | all_classes.py:63-66 | records with an id come first in ascending id order, and records without one come last |
| Dataset.MergedLatest | all_classes.py:557-584 | after a run of upserts an id is present exactly when it was before or a kept record carried it, and its record is the latest kept one |
| Dataset.OrderConsistent | all_classes.py:557-584 | the key order stays duplicate-free and matches the keys, and existing keys keep their place |
| Dataset.ValuesOf | all_classes.py:584 | the values list has one record per key, in key order |
| Dataset.CourseStore.Load | all_classes.py:475-479 | the store holds the saved records with a non-empty id, later ones winning, in first-seen order |
| Dataset.CourseStore.Upsert | all_classes.py:557-584 | a record is accepted exactly when its id is not "N/A" and starts with "FIRE-101"; it then replaces or appends its key |
| Dataset.CourseStore.Scan | all_classes.py:540-584 | the scan loop leaves the store equal to all the accepted upserts merged in order |
| Dataset.CourseStore.Values | all_classes.py:584 | `values()` lists every record in key order |
| Listing.TextAfterLabel | classes.py:17-29 | no tag gives nothing; the first non-empty string after the label wins; without one, the stripped `<nobr>` text or nothing |
| Listing.ClassUrl | classes.py:101-108 | no id or an empty id gives no URL; a non-empty id without `-` raises; otherwise a URL under the course base |
| Listing.ClassUrlOfPieces | classes.py:101-108 | an id of two or more dash-separated pieces gives a URL |
| Listing.TimeText | classes.py:126-165 | no time exactly when start and end are both empty; otherwise the start, " - " and the end |
| Listing.DayCandidate | classes.py:171-222 | a candidate names a weekday and is stripped, and a text candidate never contains the "First Class Time:" label (a span candidate may) |
| Listing.LastDayCandidateSpec | classes.py:171-222 | the days are the last candidate, and there are none exactly when no part is a candidate |
| Listing.DaysFallback | classes.py:171-222 | the loop keeps exactly that last candidate |
| Listing.FirstLocationTextSpec | classes.py:280-292 | the location is the first part with text, and there is none exactly when no part has text |
| Listing.LocationText | classes.py:280-292 | the loop keeps exactly that first location text |
| Listing.ContactOfNoMatch | classes.py:361-392 | when no `mailto:` link matches the contact text, the text is kept |
| Listing.ContactOfFirstMatch | classes.py:361-392 | the first matching link's address replaces the contact text |
| Listing.SelectContact | classes.py:361-392 | the loop picks the contact exactly as specified |
| Listing.NobrDate | classes.py:114-124 | a date is read exactly when two or more `<nobr>` elements exist and the chosen one has a non-empty string, and it is that string stripped; otherwise there is none |
| Listing.ListingRecordShape | classes.py:49-396 | a record fails exactly on a non-empty id without `-`; otherwise it holds the stripped id, a class URL exactly when the id is non-empty, no dates without a date block, a non-empty location joined as above, and a contact exactly when one was found |
| Listing.ExtractItem | classes.py:49-396 | one item's record is the record specified by `ListingRecord`: the first class time from the third and fourth `<nobr>`s, else the two after "First Class Time:" (`TimeOf`, classes.py:127-169); the days from the days span, else the last day candidate (`DaysOfBlock`, classes.py:171-222); the location fields from the longest-name join, or none for an empty location (`JoinedFields`, classes.py:295-328) |
| Listing.ExtractCourses | classes.py:32-398 | the run succeeds exactly when every item does, with one record per item |
| MapRender.GetMonthColor | generate_map.py:15-39 | no month gives the whole table, months 1 to 12 their palette colour, and any other month gray |
| MapRender.PaletteDistinct | generate_map.py:15-39 | the twelve month colours are distinct, and none is gray or the inactive colour |
| MapRender.MarkerColor | generate_map.py:147-162 | gray without a start date or when it does not parse as `%m-%d-%Y`; otherwise the colour of the parsed month |
| MapRender.MarkerColorPlaceholder | generate_map.py:147-162 | the "N/A" start date gives a gray marker |
| MapRender.MarkerColorOfDate | generate_map.py:147-162 | a canonical start date gets its month's colour |
| MapRender.Legend | generate_map.py:253-288 | the legend lists the inactive colour first, then each month's colour with its name, in month order |
| MapRender.InactiveOfMembers | generate_map.py:454-462 | the inactive courses are exactly the records whose id is not among the current ones |
| MapRender.InactiveOfAppend | generate_map.py:454-462 | the filter distributes over concatenation |
| MapRender.InactiveCourses | generate_map.py:454-462 | the loop keeps exactly those records, in order |
| MapRender.GroupInactive | generate_map.py:470-506 | the loop builds exactly the specified grouping |
| MapRender.GroupsKeys | generate_map.py:470-506 | a location is grouped exactly when an inactive record carries it as a non-empty display name that no active class carries |
| MapRender.GroupLatLong | generate_map.py:470-506 | a group's coordinates are those of the first record grouped under its name |
| MapRender.GroupDates | generate_map.py:470-506 | a group's start dates are distinct, non-empty, and exactly its records' non-empty start dates |
| MapRender.SortStartDates | generate_map.py:509-527 | sorting permutes the dates |
| MapRender.SortStartDatesSpec | generate_map.py:509-527 | when every date parses they end up newest first; when one does not, the list is unchanged |
| MapRender.SortAllStartDates | generate_map.py:509-527 | every group keeps its key and data, and gets its dates sorted |
| MapRender.InactiveLocations | generate_map.py:443-527 | a location appears exactly when a record whose id is not among the current ids (`CurrentIds`, generate_map.py:454-458) carries it as a non-empty display name that no current class carries (`ActiveNames`, generate_map.py:443-448); its group is the specified one with its dates sorted |

## Left out

- HTTP requests, retries, time-outs and sleeps are not modelled. A probe's response is a `Fetch` parameter.
- HTML parsing and DOM navigation are not modelled.
  - The element texts and regular-expression captures are the parameters `PageFields`, `ListingItem`, `DateBlock` and `Anchor`.
  - This covers the log-number, hours, register-link and `Start:`/`End:` searches.
- The absolute register link is an input.
  - `urljoin` is not modelled. In the listing scraper it joins the link onto the module-level base URL (classes.py:88, 402).
- Reading and writing JSON files is not modelled. This covers the dataset and loading the location table from `mfri_locations.json` (all_classes.py:484-495, classes.py:409-418). The records and table rows are values.
- The clock is a parameter. `datetime.now()` is passed in as `now`.
- Latitude and longitude are carried as optional strings. Float parsing and the map's coordinate checks are left out.
- folium map drawing, popups, tooltips and the legend's HTML and CSS are left out. `Legend` models only the list of entries it shows.
- The popup that joins an inactive location's dates is not modelled.
- Unicode: `Lower` and `IsSpace` follow ASCII and the whitespace characters Python's `isspace` accepts in page text, and `\d` is ASCII digits.
- Dataset.SaveOrder: a record without the `courseId` key has the sort key `(True, "")`, and one with a null id has `(True, None)`. When a list holds both, Python compares `""` with `None` and raises `TypeError`. The model treats both as having no id and orders them last without raising.
- Listing.TextAfterLabel: a `<nobr>` whose `.string` is `None` makes the source raise `AttributeError`. The model's `nobrText` input is then absent, and the result is `None`.
- MapRender.InactiveLocations: the order of the groups is not modelled. The result is a map, whereas the dictionary keeps insertion order.
- Progress messages printed while scraping are left out.
- The `elif` of the contact loop at classes.py:387-392 can never be taken: its condition implies the earlier `if`. The model keeps only the reachable branch.
- Listing.ListingRecordShape: the listing scraper never sets `courseUrl` or `instructionalHours`, so the model leaves them `None`.
- Locations.BestMatch: a matching table entry counts as found even when its data is an empty dictionary. The source's `if best_match_loc_data:` treats such an entry as no match, but the location table has no empty entries.

=== FILE: dataset.dfy ===
/**
 * The saved course dataset of the detail-page scraper: the order in which
 * `save_data` writes records, and the dictionary keyed by course id that the
 * scan loop fills in place (all_classes.py:63-66, 475-479, 557-584).
 */
module Dataset {
  import opened Wrappers
  import opened Strings
  import opened Records
  import opened Sorting

  // ---------------------------------------------------------------- save order

  /**
   * The sort key `(courseId is None, courseId)`: records with an id come first,
   * in Python's string order, and records without one come last.
   */
  predicate SaveKeyLe(x: Course, y: Course) {
    match (x.courseId, y.courseId)
    case (Some(a), Some(b)) => LexLe(a, b)
    case (Some(_), None) => true
    case (None, Some(_)) => false
    case (None, None) => true
  }

  lemma SaveKeyPreorder()
    ensures Total(SaveKeyLe) && Transitive(SaveKeyLe)
  {
    forall a: Course, b: Course ensures SaveKeyLe(a, b) || SaveKeyLe(b, a) {
      if a.courseId.Some? && b.courseId.Some? {
        LexLeTotal(a.courseId.value, b.courseId.value);
      }
    }
    forall a: Course, b: Course, c: Course | SaveKeyLe(a, b) && SaveKeyLe(b, c)
      ensures SaveKeyLe(a, c)
    {
      if a.courseId.Some? && b.courseId.Some? && c.courseId.Some? {
        LexLeTransitive(a.courseId.value, b.courseId.value, c.courseId.value);
      }
    }
  }

  /** The list `save_data` writes (all_classes.py:63-66). */
  function SaveOrder(data: seq<Course>): (r: seq<Course>)
    ensures multiset(r) == multiset(data)
  {
    SortBy(data, SaveKeyLe)
  }

  /** The written list is ordered by id ascending, with every record lacking an id after all those having one. */
  lemma SaveOrderSorted(data: seq<Course>)
    ensures |SaveOrder(data)| == |data|
    ensures forall i, j :: 0 <= i < j < |SaveOrder(data)| && SaveOrder(data)[i].courseId.None?
                           ==> SaveOrder(data)[j].courseId.None?
    ensures forall i, j :: 0 <= i < j < |SaveOrder(data)| && SaveOrder(data)[i].courseId.Some?
                                                          && SaveOrder(data)[j].courseId.Some?
                           ==> LexLe(SaveOrder(data)[i].courseId.value, SaveOrder(data)[j].courseId.value)
  {
    SaveKeyPreorder();
    SortBySorted(data, SaveKeyLe);
    var r := SaveOrder(data);
    assert SortedBy(r, SaveKeyLe);
    forall i, j | 0 <= i < j < |r| ensures SaveKeyLe(r[i], r[j]) {
    }
  }

  // ---------------------------------------------------------------- the dictionary

  /** The two places records enter the dictionary. */
  datatype Pass = Loading | Scanning

  /**
   * Loading the saved file keeps any record with a non-empty id
   * (all_classes.py:475-479); the scan keeps a parsed record whose id is not
   * "N/A" and starts with "FIRE-101" (all_classes.py:557-584).
   */
  predicate Keeps(pass: Pass, c: Course) {
    match pass
    case Loading => Truthy(c.courseId)
    case Scanning => c.courseId.Some? && c.courseId.value != "N/A" && StartsWith(c.courseId.value, "FIRE-101")
  }

  /** The records after `cs` have been stored in turn into `m`, a later record overwriting an earlier one. */
  function Merged(m: map<string, Course>, cs: seq<Course>, pass: Pass): map<string, Course> {
    if cs == [] then m
    else
      var prev := Merged(m, cs[..|cs| - 1], pass);
      var c := cs[|cs| - 1];
      if Keeps(pass, c) then prev[c.courseId.value := c] else prev
  }

  /** The dictionary's key order after `cs`: a new id goes last, an overwritten one keeps its place. */
  function OrderAfter(keys: seq<string>, cs: seq<Course>, pass: Pass): seq<string> {
    if cs == [] then keys
    else
      var prev := OrderAfter(keys, cs[..|cs| - 1], pass);
      var c := cs[|cs| - 1];
      if Keeps(pass, c) && c.courseId.value !in prev then prev + [c.courseId.value] else prev
  }

  /** Reference definition: the last record of `cs` that the pass keeps with id `id`. */
  function LastKept(cs: seq<Course>, id: string, pass: Pass): (r: Option<Course>)
    ensures r.Some? ==> r.value in cs && Keeps(pass, r.value) && r.value.courseId == Some(id)
  {
    if cs == [] then None
    else if Keeps(pass, cs[|cs| - 1]) && cs[|cs| - 1].courseId == Some(id) then Some(cs[|cs| - 1])
    else LastKept(cs[..|cs| - 1], id, pass)
  }

  /**
   * After the records `cs`, an id is a key exactly when it was one before or a
   * kept record has it, and its record is the latest kept one with that id,
   * or the old one when no record in `cs` was kept for it.
   */
  lemma {:induction false} MergedLatest(m: map<string, Course>, cs: seq<Course>, pass: Pass, id: string)
    ensures id in Merged(m, cs, pass) <==> id in m || LastKept(cs, id, pass).Some?
    ensures LastKept(cs, id, pass).Some? ==> Merged(m, cs, pass)[id] == LastKept(cs, id, pass).value
    ensures LastKept(cs, id, pass).None? && id in m ==> Merged(m, cs, pass)[id] == m[id]
    decreases |cs|
  {
    if cs != [] {
      MergedLatest(m, cs[..|cs| - 1], pass, id);
    }
  }

  /** The dictionary's keys in order: distinct, and exactly the ids with a record. */
  ghost predicate Consistent(keys: seq<string>, m: map<string, Course>) {
    (forall i, j :: 0 <= i < j < |keys| ==> keys[i] != keys[j])
    && (forall k :: k in m <==> k in keys)
  }

  lemma {:induction false} OrderConsistent(keys: seq<string>, m: map<string, Course>, cs: seq<Course>, pass: Pass)
    requires Consistent(keys, m)
    ensures Consistent(OrderAfter(keys, cs, pass), Merged(m, cs, pass))
    ensures keys <= OrderAfter(keys, cs, pass)
    decreases |cs|
  {
    if cs != [] {
      OrderConsistent(keys, m, cs[..|cs| - 1], pass);
    }
  }

  /** The records in the order given by `keys`: `all_course_data_dict.values()`. */
  function ValuesOf(keys: seq<string>, m: map<string, Course>): (r: seq<Course>)
    requires forall k :: k in keys ==> k in m
    ensures |r| == |keys|
    ensures forall i :: 0 <= i < |keys| ==> r[i] == m[keys[i]]
  {
    if keys == [] then [] else [m[keys[0]]] + ValuesOf(keys[1..], m)
  }

  /**
   * `all_course_data_dict`: the course records keyed by id, with the keys in
   * insertion order as a Python dictionary keeps them.
   */
  class CourseStore {
    var keys: seq<string>
    var records: map<string, Course>

    ghost predicate Valid()
      reads this
    {
      Consistent(keys, records)
    }

    /** The dictionary comprehension over the saved records (all_classes.py:475-479). */
    constructor Load(existing: seq<Course>)
      ensures Valid()
      ensures records == Merged(map[], existing, Loading)
      ensures keys == OrderAfter([], existing, Loading)
    {
      var ks: seq<string> := [];
      var m: map<string, Course> := map[];
      for i := 0 to |existing|
        invariant m == Merged(map[], existing[..i], Loading)
        invariant ks == OrderAfter([], existing[..i], Loading)
      {
        assert existing[..i + 1][..i] == existing[..i];
        var c := existing[i];
        if c.courseId.Some? && c.courseId.value != "" {
          if c.courseId.value !in ks {
            ks := ks + [c.courseId.value];
          }
          m := m[c.courseId.value := c];
        }
      }
      assert existing[..|existing|] == existing;
      OrderConsistent([], map[], existing, Loading);
      keys := ks;
      records := m;
    }

    /**
     * One parsed record reaching the store in the scan loop
     * (all_classes.py:557-584): a record whose id is "N/A" or lacks the
     * "FIRE-101" prefix is skipped; otherwise it is stored under its id,
     * replacing any earlier record with that id.
     */
    method Upsert(c: Course) returns (accepted: bool)
      requires Valid() && c.courseId.Some?
      modifies this
      ensures Valid()
      ensures accepted == Keeps(Scanning, c)
      ensures records == Merged(old(records), [c], Scanning)
      ensures keys == OrderAfter(old(keys), [c], Scanning)
    {
      var id := c.courseId.value;
      accepted := id != "N/A" && StartsWith(id, "FIRE-101");
      if accepted {
        if id !in records {
          keys := keys + [id];
        }
        records := records[id := c];
      }
      assert [c][..0] == [];
      OrderConsistent(old(keys), old(records), [c], Scanning);
    }

    /** The scan loop over the records parsed from active pages, in scan order. */
    method Scan(found: seq<Course>)
      requires Valid()
      requires forall i :: 0 <= i < |found| ==> found[i].courseId.Some?
      modifies this
      ensures Valid()
      ensures records == Merged(old(records), found, Scanning)
      ensures keys == OrderAfter(old(keys), found, Scanning)
    {
      for i := 0 to |found|
        invariant Valid()
        invariant records == Merged(old(records), found[..i], Scanning)
        invariant keys == OrderAfter(old(keys), found[..i], Scanning)
      {
        assert found[..i + 1][..i] == found[..i];
        var _ := Upsert(found[i]);
      }
      assert found[..|found|] == found;
    }

    /** `list(all_course_data_dict.values())`, the list handed to `save_data`. */
    function Values(): (r: seq<Course>)
      requires Valid()
      reads this
      ensures |r| == |keys|
      ensures forall i :: 0 <= i < |keys| ==> r[i] == records[keys[i]]
    {
      ValuesOf(keys, records)
    }
  }
}

=== FILE: dates.dfy ===
/**
 * The date normaliser of the detail-page scraper: it accepts `Month D, YYYY`
 * (the `strptime` format `%B %d, %Y`) or `M-D-YYYY` (`%m-%d-%Y`) and writes
 * `MM-DD-YYYY`; `strptime` also checks the calendar, so an impossible date is
 * not rewritten.
 */
module Dates {
  import opened Wrappers
  import opened Strings

  datatype Date = Date(year: int, month: int, day: int)

  const MonthNames: seq<string> := ["January", "February", "March", "April", "May", "June",
    "July", "August", "September", "October", "November", "December"]

  /** The lower-case names that the `%B` directive matches, ignoring case. */
  const MonthKeys: seq<string> := ["january", "february", "march", "april", "may", "june",
    "july", "august", "september", "october", "november", "december"]

  predicate IsLeapYear(y: int) {
    y % 4 == 0 && (y % 100 != 0 || y % 400 == 0)
  }

  function DaysInMonth(y: int, m: int): (n: int)
    requires 1 <= m <= 12
    ensures 28 <= n <= 31
    ensures n == 29 <==> m == 2 && IsLeapYear(y)
  {
    if m == 2 then (if IsLeapYear(y) then 29 else 28)
    else if m == 4 || m == 6 || m == 9 || m == 11 then 30
    else 31
  }

  /** The dates `datetime` can represent: years 1 to 9999 and a day that exists in its month. */
  predicate ValidDate(d: Date) {
    1 <= d.year <= 9999 && 1 <= d.month <= 12 && 1 <= d.day <= DaysInMonth(d.year, d.month)
  }

  // ---------------------------------------------------------------- digits

  predicate AllDigits(s: string) {
    forall k :: 0 <= k < |s| ==> IsDigit(s[k])
  }

  /** The decimal value of a string of digits (what `int()` gives). */
  function DigitsValue(s: string): nat
    requires AllDigits(s)
  {
    if s == [] then 0 else DigitsValue(s[..|s| - 1]) * 10 + (s[|s| - 1] as int - '0' as int)
  }

  function DigitChar(n: int): (c: char)
    requires 0 <= n < 10
    ensures IsDigit(c) && c as int - '0' as int == n
  {
    ('0' as int + n) as char
  }

  /** `%02d`: two digits, zero-padded. */
  function Pad2(n: int): (r: string)
    requires 0 <= n < 100
    ensures |r| == 2 && AllDigits(r) && DigitsValue(r) == n
  {
    var r := [DigitChar(n / 10), DigitChar(n % 10)];
    assert r[..1] == [DigitChar(n / 10)] && r[..1][..0] == [];
    assert DigitsValue(r[..1]) == n / 10;
    r
  }

  /** The year as `%Y` writes it: four digits, zero-padded. */
  function Pad4(n: int): (r: string)
    requires 0 <= n < 10000
    ensures |r| == 4 && AllDigits(r) && DigitsValue(r) == n
  {
    var hi := Pad2(n / 100);
    var lo := Pad2(n % 100);
    var r := hi + lo;
    assert r[..3][..2] == hi && r[..3][2] == lo[0] && r[3] == lo[1];
    assert lo[..1][..0] == [] && lo[..1] == [lo[0]];
    assert DigitsValue(r[..3]) == DigitsValue(hi) * 10 + (lo[0] as int - '0' as int);
    assert DigitsValue(lo) == (lo[0] as int - '0' as int) * 10 + (lo[1] as int - '0' as int);
    r
  }

  // ---------------------------------------------------------------- tokens

  /** The `%m` directive followed by a separator: one or two digits naming a month. */
  function MonthValue(t: string): (m: Option<int>)
    ensures m.Some? ==> 1 <= m.value <= 12
  {
    if 1 <= |t| <= 2 && AllDigits(t) && 1 <= DigitsValue(t) <= 12 then Some(DigitsValue(t)) else None
  }

  /**
   * The `%d` directive followed by a separator: one or two digits with a value
   * from 1 to 31, or a space and one non-zero digit.
   */
  function DayValue(t: string): (d: Option<int>)
    ensures d.Some? ==> 1 <= d.value <= 31
  {
    if |t| == 2 && t[0] == ' ' && '1' <= t[1] <= '9' then Some(t[1] as int - '0' as int)
    else if 1 <= |t| <= 2 && AllDigits(t) && 1 <= DigitsValue(t) <= 31 then Some(DigitsValue(t))
    else None
  }

  /** The `%Y` directive at the end of the input: exactly four digits. */
  function YearValue(t: string): Option<int> {
    if |t| == 4 && AllDigits(t) then Some(DigitsValue(t)) else None
  }

  function MakeDate(y: Option<int>, m: Option<int>, d: Option<int>): (r: Option<Date>)
    ensures r.Some? <==> y.Some? && m.Some? && d.Some? && ValidDate(Date(y.value, m.value, d.value))
    ensures r.Some? ==> r.value == Date(y.value, m.value, d.value)
  {
    if y.Some? && m.Some? && d.Some? && ValidDate(Date(y.value, m.value, d.value))
    then Some(Date(y.value, m.value, d.value))
    else None
  }

  /** `datetime.strptime(c, "%m-%d-%Y")`, with `None` for the ValueError. */
  function ParseNumericDate(c: string): (r: Option<Date>)
    ensures r.Some? ==> ValidDate(r.value)
  {
    var parts := Split(c, '-');
    if |parts| != 3 then None
    else MakeDate(YearValue(parts[2]), MonthValue(parts[0]), DayValue(parts[1]))
  }

  /** The month name `MonthKeys[i]` starts `c`, ignoring case. */
  predicate NameAt(c: string, i: nat)
    requires i < 12
  {
    WordAtIgnoreCase(c, 0, MonthKeys[i])
  }

  function LeadingMonthFrom(c: string, i: nat): (m: Option<nat>)
    requires i <= 12
    ensures m.Some? ==> i <= m.value < 12 && NameAt(c, m.value)
    ensures m.None? ==> forall j :: i <= j < 12 ==> !NameAt(c, j)
    decreases 12 - i
  {
    if i == 12 then None else if NameAt(c, i) then Some(i) else LeadingMonthFrom(c, i + 1)
  }

  /** The month whose name starts `c` (the `%B` directive), as an index into `MonthKeys`. */
  function LeadingMonth(c: string): (m: Option<nat>)
    ensures m.Some? ==> m.value < 12 && NameAt(c, m.value)
    ensures m.None? ==> forall j :: 0 <= j < 12 ==> !NameAt(c, j)
  {
    LeadingMonthFrom(c, 0)
  }

  /**
   * `datetime.strptime(c, "%B %d, %Y")`, with `None` for the ValueError: a month
   * name, at least one whitespace character, the day, a comma, at least one
   * whitespace character and a four-digit year that ends the input.
   */
  function ParseMonthNameDate(c: string): (r: Option<Date>)
    ensures r.Some? ==> ValidDate(r.value)
  {
    match LeadingMonth(c)
    case None => None
    case Some(i) => ParseDayAndYear(c[|MonthKeys[i]|..], i + 1)
  }

  /** The part of `%B %d, %Y` that follows the month name. */
  function ParseDayAndYear(rest: string, month: int): (r: Option<Date>)
    ensures r.Some? ==> ValidDate(r.value) && r.value.month == month
  {
    var j := SpaceRunEnd(rest, 0);
    var after := rest[j..];
    var k := IndexOf(after, ',');
    if j == 0 || k == |after| then None
    else
      var yearPart := after[k + 1..];
      var y := SpaceRunEnd(yearPart, 0);
      if y == 0 then None
      else MakeDate(YearValue(yearPart[y..]), Some(month), DayValue(after[..k]))
  }

  // ---------------------------------------------------------------- comma spacing

  /** `re.sub(r"\s*,\s*", ", ", s)`: every comma with the whitespace around it becomes ", ". */
  function CommaSpacing(s: string): (r: string)
    ensures ',' !in s ==> r == s
    ensures s != [] && !IsSpace(s[0]) ==> r != [] && r[0] == s[0]
    decreases |s|
  {
    if s == [] then []
    else
      var k := SpaceRunEnd(s, 0);
      if k < |s| && s[k] == ',' then
        ", " + CommaSpacing(s[SpaceRunEnd(s, k + 1)..])
      else
        [s[0]] + CommaSpacing(s[1..])
  }

  // ---------------------------------------------------------------- format_date_mdy

  /** `strftime("%m-%d-%Y")` */
  function FormatMdy(d: Date): (r: string)
    requires ValidDate(d)
    ensures |r| == 10 && r[2] == '-' && r[5] == '-'
    ensures ParseNumericDate(r) == Some(d)
  {
    var r := Pad2(d.month) + "-" + Pad2(d.day) + "-" + Pad4(d.year);
    NumericRoundTrip(Pad2(d.month), Pad2(d.day), Pad4(d.year));
    r
  }

  /** A result that is already in the canonical `MM-DD-YYYY` form of a valid date. */
  predicate IsCanonical(r: string) {
    var p := ParseNumericDate(r);
    p.Some? && FormatMdy(p.value) == r
  }

  /**
   * `format_date_mdy`: "N/A" for an empty or "N/A" input; otherwise the
   * stripped input with its commas respaced is parsed as `Month D, YYYY` and
   * then as `M-D-YYYY`, and the first date that parses is written as
   * `MM-DD-YYYY`; an input that parses as neither is returned as it was given.
   */
  function FormatDateMdy(s: string): (r: string)
    ensures s == "" || s == "N/A" ==> r == "N/A"
    ensures r == "N/A" || r == s || IsCanonical(r)
  {
    if s == "" || s == "N/A" then "N/A"
    else
      var c := CommaSpacing(Strip(s));
      var parsed := match ParseMonthNameDate(c) case Some(d) => Some(d) case None => ParseNumericDate(c);
      if parsed.Some? then
        var r := FormatMdy(parsed.value);
        assert ParseNumericDate(r) == parsed;
        r
      else s
  }

  // ---------------------------------------------------------------- lemmas

  lemma NumericRoundTrip(m: string, d: string, y: string)
    requires '-' !in m && '-' !in d && '-' !in y
    ensures Split(m + "-" + d + "-" + y, '-') == [m, d, y]
  {
    var parts := [m, d, y];
    assert parts[1..] == [d, y] && parts[1..][1..] == [y];
    assert Join([d, y], "-") == d + "-" + y;
    assert Join(parts, "-") == m + "-" + d + "-" + y;
    SplitJoin(parts, '-');
  }

  /** The names match their lower-case keys, and start with a letter. */
  lemma MonthNameKey(i: nat)
    requires i < 12
    ensures Lower(MonthNames[i]) == MonthKeys[i]
    ensures |MonthNames[i]| == |MonthKeys[i]| >= 3
    ensures 'A' <= MonthNames[i][0] <= 'Z' && ',' !in MonthNames[i] && '-' !in MonthNames[i]
    ensures 'a' <= MonthKeys[i][0] <= 'z'
  {
  }

  lemma MonthNameCapital(i: nat)
    requires i < 12
    ensures MonthNames[i] != [] && 'A' <= MonthNames[i][0] <= 'Z'
  {
  }

  /** At most one month name starts any string: the first three letters tell the names apart. */
  lemma NameAtUnique(c: string, i: nat, j: nat)
    requires i < 12 && j < 12 && NameAt(c, i) && NameAt(c, j)
    ensures i == j
  {
    var a, b := MonthKeys[i], MonthKeys[j];
    assert |a| >= 3 && |b| >= 3;
    assert a[0] == LowerChar(c[0]) == b[0];
    assert a[1] == LowerChar(c[1]) == b[1];
    assert a[2] == LowerChar(c[2]) == b[2];
  }

  /** No comma substitution starts inside a comma-free prefix that does not end in whitespace. */
  lemma {:induction false} CommaSpacingPrefix(x: string, y: string)
    requires ',' !in x && (x == [] || !IsSpace(x[|x| - 1]))
    ensures CommaSpacing(x + y) == x + CommaSpacing(y)
    decreases |x|
  {
    if x != [] {
      var s := x + y;
      var k := SpaceRunEnd(s, 0);
      assert s[|x| - 1] == x[|x| - 1] && !IsSpace(s[|x| - 1]);
      assert k < |x|;
      assert s[k] == x[k] && x[k] != ',';
      assert CommaSpacing(s) == [s[0]] + CommaSpacing(s[1..]);
      assert s[1..] == x[1..] + y;
      CommaSpacingPrefix(x[1..], y);
      var tail := CommaSpacing(y);
      assert CommaSpacing(s) == [x[0]] + (x[1..] + tail);
      ConsAppend(x, tail);
    } else {
      assert x + y == y;
    }
  }

  /** Whitespace, a comma, whitespace and a comma-free rest that starts with a non-space become ", " and the rest. */
  lemma CommaSpacingComma(w1: string, w2: string, y: string)
    requires AllSpace(w1) && AllSpace(w2) && ',' !in y && y != [] && !IsSpace(y[0])
    ensures CommaSpacing(w1 + "," + w2 + y) == ", " + y
  {
    var t := w1 + "," + w2 + y;
    assert t[|w1|] == ',';
    assert SpaceRunEnd(t, 0) == |w1|;
    assert t[|w1| + 1 + |w2|] == y[0];
    assert SpaceRunEnd(t, |w1| + 1) == |w1| + 1 + |w2|;
    assert t[|w1| + 1 + |w2|..] == y;
    assert CommaSpacing(y) == y;
  }

  /** The three outcomes of `format_date_mdy` on an input that is neither empty nor "N/A". */
  lemma FormatByMonthName(s: string, c: string, d: Date)
    requires s != "" && s != "N/A" && CommaSpacing(Strip(s)) == c && ParseMonthNameDate(c) == Some(d)
    ensures FormatDateMdy(s) == FormatMdy(d)
  {
  }

  lemma FormatByNumber(s: string, c: string, d: Date)
    requires s != "" && s != "N/A" && CommaSpacing(Strip(s)) == c
    requires ParseMonthNameDate(c) == None && ParseNumericDate(c) == Some(d)
    ensures FormatDateMdy(s) == FormatMdy(d)
  {
  }

  lemma FormatVerbatim(s: string, c: string)
    requires s != "" && s != "N/A" && CommaSpacing(Strip(s)) == c
    requires ParseMonthNameDate(c) == None && ParseNumericDate(c) == None
    ensures FormatDateMdy(s) == s
  {
  }

  /** The long form is neither empty nor "N/A", is already stripped, and its comma respaces to ", ". */
  lemma LongFormInput(m: int, w0: string, dt: string, w1: string, w2: string, yt: string)
    requires 1 <= m <= 12
    requires AllSpace(w0) && AllSpace(w1) && AllSpace(w2)
    requires 1 <= |dt| && AllDigits(dt) && |yt| == 4 && AllDigits(yt)
    ensures var s := MonthNames[m - 1] + w0 + dt + w1 + "," + w2 + yt;
            s != "" && s != "N/A" && CommaSpacing(Strip(s)) == MonthNames[m - 1] + w0 + dt + ", " + yt
  {
    var name := MonthNames[m - 1];
    MonthNameKey(m - 1);
    LongFormStripped(name, w0, dt, w1, w2, yt);
    LongFormSpacing(name, w0, dt, w1, w2, yt);
  }

  lemma LongFormDate(d: Date, w0: string, dt: string)
    requires ValidDate(d)
    requires w0 != [] && AllSpace(w0)
    requires 1 <= |dt| <= 2 && AllDigits(dt) && DigitsValue(dt) == d.day
    ensures ParseMonthNameDate(MonthNames[d.month - 1] + w0 + dt + ", " + Pad4(d.year)) == Some(d)
  {
    LongFormParsed(d.month, w0, dt, Pad4(d.year));
    assert DayValue(dt) == Some(d.day);
  }

  lemma InvalidLongFormUnparsed(y: int, m: int, w0: string, dt: string)
    requires 1 <= y <= 9999 && 1 <= m <= 12
    requires w0 != [] && AllSpace(w0)
    requires 1 <= |dt| <= 2 && AllDigits(dt) && DaysInMonth(y, m) < DigitsValue(dt)
    ensures var c := MonthNames[m - 1] + w0 + dt + ", " + Pad4(y);
            ParseMonthNameDate(c) == None && ParseNumericDate(c) == None
  {
    LongFormParsed(m, w0, dt, Pad4(y));
    LongFormNumericFails(m, w0, dt, Pad4(y));
  }

  lemma LongFormNumericFails(m: int, w0: string, dt: string, yt: string)
    requires 1 <= m <= 12
    requires AllSpace(w0) && AllDigits(dt) && AllDigits(yt)
    ensures ParseNumericDate(MonthNames[m - 1] + w0 + dt + ", " + yt) == None
  {
    MonthNameKey(m - 1);
    assert '-' !in MonthNames[m - 1] + w0 + dt + ", " + yt;
    NoDashNumericFails(MonthNames[m - 1] + w0 + dt + ", " + yt);
  }

  /**
   * A calendar-valid `Month D, YYYY`, with any whitespace between the month
   * and the day and around the comma, is written as the zero-padded
   * `MM-DD-YYYY` of the same date.
   */
  lemma LongFormNormalised(d: Date, w0: string, dt: string, w1: string, w2: string)
    requires ValidDate(d)
    requires w0 != [] && AllSpace(w0) && AllSpace(w1) && AllSpace(w2)
    requires 1 <= |dt| <= 2 && AllDigits(dt) && DigitsValue(dt) == d.day
    ensures FormatDateMdy(MonthNames[d.month - 1] + w0 + dt + w1 + "," + w2 + Pad4(d.year)) == FormatMdy(d)
  {
    var yt := Pad4(d.year);
    LongFormInput(d.month, w0, dt, w1, w2, yt);
    LongFormDate(d, w0, dt);
    FormatByMonthName(MonthNames[d.month - 1] + w0 + dt + w1 + "," + w2 + yt,
                      MonthNames[d.month - 1] + w0 + dt + ", " + yt, d);
  }

  /** An impossible calendar date such as `February 30, 2024` is returned as it was given. */
  lemma InvalidDayUnchanged(y: int, m: int, w0: string, dt: string, w1: string, w2: string)
    requires 1 <= y <= 9999 && 1 <= m <= 12
    requires w0 != [] && AllSpace(w0) && AllSpace(w1) && AllSpace(w2)
    requires 1 <= |dt| <= 2 && AllDigits(dt) && DaysInMonth(y, m) < DigitsValue(dt)
    ensures var s := MonthNames[m - 1] + w0 + dt + w1 + "," + w2 + Pad4(y); FormatDateMdy(s) == s
  {
    var yt := Pad4(y);
    LongFormInput(m, w0, dt, w1, w2, yt);
    InvalidLongFormUnparsed(y, m, w0, dt);
    FormatVerbatim(MonthNames[m - 1] + w0 + dt + w1 + "," + w2 + yt, MonthNames[m - 1] + w0 + dt + ", " + yt);
  }

  /** Without a '-' the `%m-%d-%Y` format cannot match. */
  lemma NoDashNumericFails(c: string)
    requires '-' !in c
    ensures ParseNumericDate(c) == None
  {
    IndexOfAbsent(c, '-');
  }

  /** A long-form date starts with a letter and ends with a digit, so `strip()` leaves it alone. */
  lemma LongFormStripped(name: string, w0: string, dt: string, w1: string, w2: string, yt: string)
    requires |name| >= 3 && 'A' <= name[0] <= 'Z'
    requires |yt| == 4 && AllDigits(yt)
    ensures var s := name + w0 + dt + w1 + "," + w2 + yt; s != "" && s != "N/A" && Strip(s) == s
  {
    var s := name + w0 + dt + w1 + "," + w2 + yt;
    assert |s| > 3;
    assert s[0] == name[0] && s[|s| - 1] == yt[3];
    StripStripped(s);
  }

  /** Comma spacing of a long-form date leaves exactly ", " between the day and the year. */
  lemma LongFormSpacing(name: string, w0: string, dt: string, w1: string, w2: string, yt: string)
    requires ',' !in name && AllSpace(w0) && AllSpace(w1) && AllSpace(w2)
    requires 1 <= |dt| && AllDigits(dt) && |yt| == 4 && AllDigits(yt)
    ensures CommaSpacing(name + w0 + dt + w1 + "," + w2 + yt) == name + w0 + dt + ", " + yt
  {
    var x := name + w0 + dt;
    LongFormHead(name, w0, dt);
    var tail := w1 + "," + w2 + yt;
    assert x + w1 + "," + w2 + yt == x + tail;
    CommaSpacingPrefix(x, tail);
    assert ',' !in yt;
    CommaSpacingComma(w1, w2, yt);
    assert x + ", " + yt == x + (", " + yt);
  }

  /** The month name and the day contain no comma, and the day ends in a digit. */
  lemma LongFormHead(name: string, w0: string, dt: string)
    requires ',' !in name && AllSpace(w0) && 1 <= |dt| && AllDigits(dt)
    ensures var x := name + w0 + dt; ',' !in x && x != [] && !IsSpace(x[|x| - 1])
  {
    assert ',' !in w0 && ',' !in dt;
    NotInAppend(name, w0, ',');
    NotInAppend(name + w0, dt, ',');
    var x := name + w0 + dt;
    assert x[|x| - 1] == dt[|dt| - 1];
  }

  lemma DayAndYear(w0: string, dt: string, yt: string, m: int)
    requires w0 != [] && AllSpace(w0)
    requires 1 <= |dt| <= 2 && AllDigits(dt) && |yt| == 4 && AllDigits(yt)
    ensures ParseDayAndYear(w0 + (dt + ", " + yt), m) == MakeDate(Some(DigitsValue(yt)), Some(m), DayValue(dt))
  {
    var after := dt + ", " + yt;
    var rest := w0 + after;
    assert rest[|w0|] == dt[0];
    SpaceRunEndAt(rest, 0, |w0|);
    assert rest[|w0|..] == after;
    assert ',' !in dt by { assert forall p :: 0 <= p < |dt| ==> dt[p] != ','; }
    assert after == dt + [','] + (" " + yt);
    IndexOfAfter(dt, ',', " " + yt);
    var yearPart := " " + yt;
    assert after[|dt| + 1..] == yearPart && after[..|dt|] == dt;
    SpaceRunEndAt(yearPart, 0, 1);
    assert yearPart[1..] == yt;
  }

  /** A string that starts with a month name, in any case, is read as that month. */
  lemma LeadingMonthOf(c: string, i: nat)
    requires i < 12 && MonthNames[i] <= c
    ensures LeadingMonth(c) == Some(i)
    ensures ParseMonthNameDate(c) == ParseDayAndYear(c[|MonthNames[i]|..], i + 1)
  {
    MonthNameKey(i);
    assert c[..|MonthNames[i]|] == MonthNames[i];
    assert NameAt(c, i);
    var lm := LeadingMonth(c);
    if lm.Some? { NameAtUnique(c, lm.value, i); }
  }

  /** `%B %d, %Y` on a cleaned long-form date reads back the month, the day and the year. */
  lemma LongFormParsed(m: int, w0: string, dt: string, yt: string)
    requires 1 <= m <= 12
    requires w0 != [] && AllSpace(w0)
    requires 1 <= |dt| <= 2 && AllDigits(dt) && |yt| == 4 && AllDigits(yt)
    ensures ParseMonthNameDate(MonthNames[m - 1] + w0 + dt + ", " + yt)
         == MakeDate(Some(DigitsValue(yt)), Some(m), DayValue(dt))
  {
    var name := MonthNames[m - 1];
    var rest := w0 + (dt + ", " + yt);
    var c := name + rest;
    assert name + w0 + dt + ", " + yt == c;
    LeadingMonthOf(c, m - 1);
    assert c[|name|..] == rest;
    DayAndYear(w0, dt, yt, m);
  }

  /** A string that starts with a digit names no month. */
  lemma DigitStartNoMonth(c: string)
    requires c != [] && IsDigit(c[0])
    ensures ParseMonthNameDate(c) == None
  {
    forall i | 0 <= i < 12 ensures !NameAt(c, i) {
      MonthNameKey(i);
    }
  }

  /** `M-D-YYYY` with one- or two-digit month and day is re-padded to `MM-DD-YYYY`. */
  lemma NumericFormNormalised(d: Date, mt: string, dt: string)
    requires ValidDate(d)
    requires 1 <= |mt| <= 2 && AllDigits(mt) && DigitsValue(mt) == d.month
    requires 1 <= |dt| <= 2 && AllDigits(dt) && DigitsValue(dt) == d.day
    ensures FormatDateMdy(mt + "-" + dt + "-" + Pad4(d.year)) == FormatMdy(d)
  {
    var yt := Pad4(d.year);
    var s := mt + "-" + dt + "-" + yt;
    NumericCleaned(mt, dt, yt);
    StripStripped(s);
    DigitStartNoMonth(s);
    NumericRoundTrip(mt, dt, yt);
    assert DayValue(dt) == Some(d.day);
    assert ParseNumericDate(s) == Some(d);
    FormatByNumber(s, s, d);
  }

  /** A numeric date is already stripped and has no comma to respace. */
  lemma NumericCleaned(mt: string, dt: string, yt: string)
    requires 1 <= |mt| && AllDigits(mt) && AllDigits(dt) && |yt| == 4 && AllDigits(yt)
    ensures var s := mt + "-" + dt + "-" + yt;
      s != "" && s != "N/A" && IsStripped(s) && CommaSpacing(s) == s && IsDigit(s[0])
    ensures '-' !in mt && '-' !in dt && '-' !in yt
  {
    var s := mt + "-" + dt + "-" + yt;
    assert s[0] == mt[0] && s[|s| - 1] == yt[3];
    forall k | 0 <= k < |s| ensures s[k] != ',' {
      if k < |mt| { assert s[k] == mt[k]; }
      else if k == |mt| || k == |mt| + 1 + |dt| { }
      else if k < |mt| + 1 + |dt| { assert s[k] == dt[k - |mt| - 1]; }
      else { assert s[k] == yt[k - |mt| - 2 - |dt|]; }
    }
    assert forall k :: 0 <= k < |mt| ==> mt[k] != '-';
    assert forall k :: 0 <= k < |dt| ==> dt[k] != '-';
    assert forall k :: 0 <= k < |yt| ==> yt[k] != '-';
  }

  /** Normalising a normalised date changes nothing. */
  lemma FormatDateMdyIdempotent(s: string)
    ensures FormatDateMdy(FormatDateMdy(s)) == FormatDateMdy(s)
  {
    var r := FormatDateMdy(s);
    if r != "N/A" && r != s {
      var d := ParseNumericDate(r).value;
      NumericFormNormalised(d, Pad2(d.month), Pad2(d.day));
    }
  }

  /** After `CommaSpacing` every comma is followed by exactly one space. */
  predicate CommasFollowedBySpace(r: string) {
    forall i :: 0 <= i < |r| && r[i] == ',' ==> i + 1 < |r| && r[i + 1] == ' ' && (i + 2 == |r| || !IsSpace(r[i + 2]))
  }

  lemma {:induction false} CommaSpacingSpaced(s: string)
    ensures CommasFollowedBySpace(CommaSpacing(s))
    decreases |s|
  {
    if s != [] {
      var k := SpaceRunEnd(s, 0);
      if k < |s| && s[k] == ',' {
        var t := s[SpaceRunEnd(s, k + 1)..];
        CommaSpacingSpaced(t);
        var rest := CommaSpacing(t);
        var r := ", " + rest;
        assert CommaSpacing(s) == r;
        forall i | 0 <= i < |r| && r[i] == ','
          ensures i + 1 < |r| && r[i + 1] == ' ' && (i + 2 == |r| || !IsSpace(r[i + 2]))
        {
          if i >= 2 { assert r[i] == rest[i - 2]; }
        }
      } else {
        CommaSpacingSpaced(s[1..]);
        var rest := CommaSpacing(s[1..]);
        var r := [s[0]] + rest;
        assert CommaSpacing(s) == r;
        forall i | 0 <= i < |r| && r[i] == ','
          ensures i + 1 < |r| && r[i + 1] == ' ' && (i + 2 == |r| || !IsSpace(r[i + 2]))
        {
          assert r[i] == rest[i - 1];
        }
      }
    }
  }
}

=== FILE: detail_page.dfy ===
/**
 * The text rules of the course detail-page scraper: how the text under a
 * heading is normalised, how the day string, the first class time and the
 * coordinator's name are cut out of it, and the pure checks that decide
 * whether a probed page is an active course page. The page's DOM is given as
 * the strings the scraper extracts from it.
 */
module DetailPage {
  import opened Wrappers
  import opened Strings
  import opened Dates
  import opened Records
  import opened Locations

  // ---------------------------------------------------------------- section text

  /** A child of the paragraph under a heading: a text node, a `<br>`, or another tag with its stripped text. */
  datatype Content = Text(s: string) | Br | Tag(text: string)

  /** The piece a child contributes to `text_parts` (all_classes.py:82-87). */
  function PartOf(c: Content): string {
    match c
    case Text(s) => Strip(s)
    case Br => "\n"
    case Tag(t) => t
  }

  /** The stripped, non-blank lines of `lines`, in order. */
  function NonBlankLines(lines: seq<string>): seq<string> {
    if lines == [] then []
    else
      var l := Strip(lines[0]);
      var rest := NonBlankLines(lines[1..]);
      if l != "" then [l] + rest else rest
  }

  lemma StripNoLineBreak(s: string)
    requires NoLineBreak(s)
    ensures NoLineBreak(Strip(s))
  {
    StripIsSlice(s);
    var i := |s| - |TrimStart(s)|;
    forall k | 0 <= k < |Strip(s)| ensures !IsLineBreak(Strip(s)[k]) {
      assert Strip(s)[k] == s[i + k];
    }
  }

  /** The kept lines are non-empty, stripped, and free of line breaks when the input lines are. */
  lemma {:induction false} NonBlankShape(lines: seq<string>)
    requires forall k :: 0 <= k < |lines| ==> NoLineBreak(lines[k])
    ensures forall k :: 0 <= k < |NonBlankLines(lines)| ==>
              var l := NonBlankLines(lines)[k];
              l != "" && IsStripped(l) && NoLineBreak(l)
  {
    if lines != [] {
      var l := Strip(lines[0]);
      StripNoLineBreak(lines[0]);
      var tail := lines[1..];
      assert forall k :: 0 <= k < |tail| ==> tail[k] == lines[k + 1];
      NonBlankShape(tail);
      var rest := NonBlankLines(tail);
      if l != "" {
        var r := [l] + rest;
        assert NonBlankLines(lines) == r;
        forall k | 0 <= k < |r| ensures r[k] != "" && IsStripped(r[k]) && NoLineBreak(r[k]) {
          if k > 0 {
            assert r[k] == rest[k - 1];
          }
        }
      }
    }
  }

  /**
   * The normalisation applied to the joined parts (all_classes.py:89-94): the
   * non-blank lines, each stripped, joined by one space, with every
   * non-breaking space replaced by a space.
   */
  function NormaliseLines(x: string): string {
    ReplaceChar(Join(NonBlankLines(SplitLines(x)), " "), Nbsp, ' ')
  }

  /** The text under a heading, as a function of the paragraph's children. */
  function SectionOf(contents: seq<Content>): string {
    NormaliseLines(Join(seq(|contents|, i requires 0 <= i < |contents| => PartOf(contents[i])), " "))
  }

  /** `get_text_from_element_after_heading` once the paragraph is found (all_classes.py:80-94). */
  method SectionText(contents: seq<Content>) returns (text: string)
    ensures text == SectionOf(contents)
    ensures NoLineBreak(text) && Nbsp !in text && IsStripped(text)
  {
    var parts: seq<string> := [];
    for i := 0 to |contents|
      invariant parts == seq(i, k requires 0 <= k < i => PartOf(contents[k]))
    {
      parts := parts + [PartOf(contents[i])];
    }
    text := NormaliseLines(Join(parts, " "));
    NormalisedShape(Join(parts, " "));
  }

  lemma {:induction false} JoinSpaced(parts: seq<string>)
    requires forall k :: 0 <= k < |parts| ==> parts[k] != "" && IsStripped(parts[k]) && NoLineBreak(parts[k])
    ensures NoLineBreak(Join(parts, " ")) && IsStripped(Join(parts, " "))
    ensures parts != [] ==> Join(parts, " ") != [] && Join(parts, " ")[0] == parts[0][0]
  {
    if |parts| >= 2 {
      JoinSpaced(parts[1..]);
      var rest := Join(parts[1..], " ");
      assert Join(parts, " ") == parts[0] + " " + rest;
    }
  }

  /** Normalised text has no line breaks, no non-breaking spaces and no whitespace at either end. */
  lemma NormalisedShape(x: string)
    ensures NoLineBreak(NormaliseLines(x)) && Nbsp !in NormaliseLines(x) && IsStripped(NormaliseLines(x))
  {
    var lines := SplitLines(x);
    assert forall k :: 0 <= k < |lines| ==> NoLineBreak(lines[k]);
    NonBlankShape(lines);
    JoinSpaced(NonBlankLines(lines));
    ReplaceNbspShape(Join(NonBlankLines(lines), " "));
  }

  /** Replacing non-breaking spaces in stripped one-line text leaves it stripped and on one line. */
  lemma ReplaceNbspShape(j: string)
    requires NoLineBreak(j) && IsStripped(j)
    ensures var r := ReplaceChar(j, Nbsp, ' ');
            NoLineBreak(r) && Nbsp !in r && IsStripped(r)
  {
    var r := ReplaceChar(j, Nbsp, ' ');
    assert IsSpace(Nbsp) && !IsLineBreak(' ');
    forall k | 0 <= k < |r| ensures r[k] != Nbsp && !IsLineBreak(r[k]) {
    }
    if r != [] {
      assert r[0] == j[0] && r[|r| - 1] == j[|j| - 1];
    }
  }

  lemma SplitLinesOne(s: string)
    requires s != [] && NoLineBreak(s)
    ensures SplitLines(s) == [s]
  {
    var i := LineBreakIndex(s);
    assert i == |s|;
  }

  /** Normalising normalised text changes nothing. */
  lemma NormaliseIdempotent(x: string)
    ensures NormaliseLines(NormaliseLines(x)) == NormaliseLines(x)
  {
    var r := NormaliseLines(x);
    NormalisedShape(x);
    if r != [] {
      SplitLinesOne(r);
      StripStripped(r);
      assert NonBlankLines([r]) == [r];
      ReplaceCharAbsent(r, Nbsp, ' ');
    }
  }
  // ---------------------------------------------------------------- days and times

  /** `\d{1,2}:\d{2}` at `j`, with the greedy `\d{1,2}` backtracking to one digit when two do not fit. */
  predicate ClockAt(s: string, j: nat) {
    (j + 5 <= |s| && IsDigit(s[j]) && IsDigit(s[j + 1]) && s[j + 2] == ':' && IsDigit(s[j + 3]) && IsDigit(s[j + 4]))
    || (j + 4 <= |s| && IsDigit(s[j]) && s[j + 1] == ':' && IsDigit(s[j + 2]) && IsDigit(s[j + 3]))
  }

  /** `\s+\d{1,2}:\d{2}` matches at `p`: `\s+` must take the whole run of whitespace, since a digit follows. */
  predicate TimeStartsAt(s: string, p: nat)
    requires p <= |s|
  {
    p < |s| && IsSpace(s[p]) && ClockAt(s, SpaceRunEnd(s, p))
  }

  /** The leftmost position at or after `p` where a trailing time starts, or `|s|`. */
  function TimeCut(s: string, p: nat): (q: nat)
    requires p <= |s|
    ensures p <= q <= |s|
    decreases |s| - p
  {
    if p == |s| then p else if TimeStartsAt(s, p) then p else TimeCut(s, p + 1)
  }

  /** The cut is where a time starts, or the end, and no time starts before it. */
  lemma {:induction false} TimeCutLeftmost(s: string, p: nat)
    requires p <= |s|
    ensures TimeCut(s, p) < |s| ==> TimeStartsAt(s, TimeCut(s, p))
    ensures forall k :: p <= k < TimeCut(s, p) ==> !TimeStartsAt(s, k)
    decreases |s| - p
  {
    if p < |s| && !TimeStartsAt(s, p) {
      TimeCutLeftmost(s, p + 1);
    }
  }

  /** Conversely, a position with a time and none before it is the cut. */
  lemma {:induction false} TimeCutAt(s: string, p: nat, q: nat)
    requires p <= q <= |s| && (q < |s| ==> TimeStartsAt(s, q))
    requires forall k :: p <= k < q ==> !TimeStartsAt(s, k)
    ensures TimeCut(s, p) == q
    decreases q - p
  {
    if p < q {
      TimeCutAt(s, p + 1, q);
    }
  }

  /**
   * `re.sub(r"\s+\d{1,2}:\d{2}.*$", "", s).strip()` on one line (all_classes.py:273-276):
   * without a newline `.*$` always reaches the end, so everything from the
   * leftmost time on is removed.
   */
  function CutTrailingTime(s: string): (r: string)
    requires '\n' !in s
    ensures IsStripped(r)
  {
    Strip(s[..TimeCut(s, 0)])
  }

  const DayAbbrevs: seq<string> := ["mon", "tue", "wed", "thu", "fri", "sat", "sun"]

  /** Some three-letter day abbreviation occurs in `s`, ignoring case (all_classes.py:279-280). */
  predicate NamesDayAbbrev(s: string) {
    exists k :: 0 <= k < |DayAbbrevs| && Contains(Lower(s), DayAbbrevs[k])
  }

  lemma StripKeepsAbsent(s: string, c: char)
    requires c !in s
    ensures c !in Strip(s)
  {
    StripIsSlice(s);
  }

  /**
   * The `days` value taken from the "Days and Times:" text (all_classes.py:264-282):
   * the first `\n`-separated part, stripped, with a trailing time cut off; kept
   * when it names a day, "N/A" otherwise.
   */
  function DaysOf(text: string): (r: string)
    ensures r == "N/A" || NamesDayAbbrev(r)
  {
    var first := Strip(Split(text, '\n')[0]);
    StripKeepsAbsent(Split(text, '\n')[0], '\n');
    var candidate := CutTrailingTime(first);
    if NamesDayAbbrev(candidate) then candidate else "N/A"
  }

  /** A clock time as the page prints it: `H:MM` or `HH:MM`. */
  predicate IsClock(t: string) {
    (|t| == 4 && IsDigit(t[0]) && t[1] == ':' && IsDigit(t[2]) && IsDigit(t[3]))
    || (|t| == 5 && IsDigit(t[0]) && IsDigit(t[1]) && t[2] == ':' && IsDigit(t[3]) && IsDigit(t[4]))
  }

  /** Before a space that ends a colon-free, non-space-terminated prefix, no time starts. */
  lemma NoTimeBefore(s: string, p: nat, k: nat)
    requires k < p < |s| && !IsSpace(s[p - 1]) && IsSpace(s[p])
    requires forall i :: 0 <= i < p ==> s[i] != ':'
    ensures !TimeStartsAt(s, k)
  {
    if IsSpace(s[k]) {
      var j := SpaceRunEnd(s, k);
      assert j < p;
      assert !ClockAt(s, j);
    }
  }

  lemma TimeAfterSpace(s: string, p: nat, w: string, t: string)
    requires p + |w| + |t| <= |s| && w != "" && AllSpace(w) && IsClock(t)
    requires s[p..p + |w|] == w && s[p + |w|..p + |w| + |t|] == t
    ensures TimeStartsAt(s, p)
  {
    assert forall k :: p <= k < p + |w| ==> s[k] == w[k - p];
    SpaceRunEndAt(s, p, p + |w|);
    assert s[p + |w|] == t[0];
  }

  /** The cut falls at the first position where a time starts. */
  lemma CutAt(s: string, p: nat)
    requires '\n' !in s && p < |s| && TimeStartsAt(s, p)
    requires forall k :: 0 <= k < p ==> !TimeStartsAt(s, k)
    ensures CutTrailingTime(s) == Strip(s[..p])
  {
    TimeCutAt(s, 0, p);
  }

  /** A day list without a colon, then whitespace and a time: the day list is what remains. */
  lemma CutBeforeTime(d: string, w: string, t: string, rest: string)
    requires d != "" && IsStripped(d) && ':' !in d
    requires w != "" && AllSpace(w) && IsClock(t)
    requires '\n' !in d + w + t + rest
    ensures CutTrailingTime(d + w + t + rest) == d
  {
    var s := d + w + t + rest;
    var p := |d|;
    assert s[..p] == d && s[p..p + |w|] == w && s[p + |w|..p + |w| + |t|] == t;
    assert forall i :: 0 <= i < p ==> s[i] == d[i];
    assert s[p] == w[0];
    forall k | 0 <= k < p ensures !TimeStartsAt(s, k) {
      NoTimeBefore(s, p, k);
    }
    TimeAfterSpace(s, p, w, t);
    CutAt(s, p);
    StripStripped(d);
  }

  /** A day list that names a day, followed by a time, is kept as the `days` value. */
  lemma DaysBeforeTime(d: string, w: string, t: string, rest: string)
    requires d != "" && IsStripped(d) && ':' !in d && NamesDayAbbrev(d)
    requires w != "" && AllSpace(w) && IsClock(t)
    requires '\n' !in d + w + t + rest
    requires rest == "" || !IsSpace(rest[|rest| - 1])
    ensures DaysOf(d + w + t + rest) == d
  {
    var s := d + w + t + rest;
    IndexOfAbsent(s, '\n');
    assert Split(s, '\n') == [s];
    assert s[0] == d[0];
    assert s[|s| - 1] == if rest == "" then t[|t| - 1] else rest[|rest| - 1];
    StripStripped(s);
    CutBeforeTime(d, w, t, rest);
  }

  /**
   * `firstClassTime` from the first session's start and end time, "N/A" standing
   * for a time that was not found (all_classes.py:247-254).
   */
  function FirstClassTime(start: string, end: string): (r: string)
    ensures r == "N/A" <==> start == "N/A"
    ensures start != "N/A" ==> StartsWith(r, start)
    ensures start != "N/A" && end != "N/A" ==> r[|start|..] == " - " + end
    ensures start != "N/A" && end == "N/A" ==> r == start
  {
    if start != "N/A" && end != "N/A" then
      var r := start + " - " + end;
      assert r[|start| + 1] == '-';
      r
    else if start != "N/A" then start
    else "N/A"
  }
  // ---------------------------------------------------------------- coordinator name

  /** Python's `$` without MULTILINE: the end, or just before a final newline. */
  predicate AtEnd(s: string, e: nat) {
    e == |s| || (e + 1 == |s| && s[e] == '\n')
  }

  /** The end of the `the\s+MFRI\s+` match at the start of `s`, ignoring case, or 0 without one. */
  function CoordinatorPrefixEnd(s: string): (e: nat)
    ensures e <= |s|
    ensures e > 0 ==> e == |s| || !IsSpace(s[e])
  {
    if !WordAtIgnoreCase(s, 0, "the") then 0
    else
      var j := SpaceRunEnd(s, 3);
      if j == 3 || !WordAtIgnoreCase(s, j, "mfri") then 0
      else
        var k := SpaceRunEnd(s, j + 4);
        if k == j + 4 then 0 else k
  }

  /** `\s+Training\s+Center$` from `i`, ignoring case. */
  predicate TrainingCenterFrom(s: string, i: nat)
    requires i <= |s|
  {
    var k := SpaceRunEnd(s, i);
    k > i && WordAtIgnoreCase(s, k, "training")
    && var m := SpaceRunEnd(s, k + 8);
    m > k + 8 && WordAtIgnoreCase(s, m, "center") && AtEnd(s, m + 6)
  }

  /**
   * `(\s+Office|\s+Regional\s+Training\s+Center)$` matches at `p`, ignoring case;
   * `\s+` takes the whole run of whitespace, since a letter follows.
   */
  predicate OfficeSuffixAt(s: string, p: nat)
    requires p <= |s|
  {
    p < |s| && IsSpace(s[p])
    && var j := SpaceRunEnd(s, p);
    (WordAtIgnoreCase(s, j, "office") && AtEnd(s, j + 6))
    || (WordAtIgnoreCase(s, j, "regional") && TrainingCenterFrom(s, j + 8))
  }

  /** The leftmost position at or after `p` where the suffix matches, or `|s|`. */
  function SuffixStart(s: string, p: nat): (q: nat)
    requires p <= |s|
    ensures p <= q <= |s|
    decreases |s| - p
  {
    if p == |s| then p else if OfficeSuffixAt(s, p) then p else SuffixStart(s, p + 1)
  }

  /** The suffix starts where it matches, or at the end, and matches nowhere before. */
  lemma {:induction false} SuffixStartLeftmost(s: string, p: nat)
    requires p <= |s|
    ensures SuffixStart(s, p) < |s| ==> OfficeSuffixAt(s, SuffixStart(s, p))
    ensures forall k :: p <= k < SuffixStart(s, p) ==> !OfficeSuffixAt(s, k)
    decreases |s| - p
  {
    if p < |s| && !OfficeSuffixAt(s, p) {
      SuffixStartLeftmost(s, p + 1);
    }
  }

  /** Conversely, a position where the suffix matches, with no match before it, is where it starts. */
  lemma {:induction false} SuffixStartAt(s: string, p: nat, q: nat)
    requires p <= q <= |s| && (q < |s| ==> OfficeSuffixAt(s, q))
    requires forall k :: p <= k < q ==> !OfficeSuffixAt(s, k)
    ensures SuffixStart(s, p) == q
    decreases q - p
  {
    if p < q {
      SuffixStartAt(s, p + 1, q);
    }
  }

  /**
   * The coordinator cleanup (all_classes.py:390-395 and 405-410):
   * `re.sub(r"^(the\s+MFRI\s+)?|(\s+Office|\s+Regional\s+Training\s+Center)?$", "", s, flags=re.IGNORECASE).strip()`.
   * The substitution removes the prefix match, then the leftmost non-empty
   * suffix match after it, which runs to the end (or to a final newline, which
   * `strip()` removes); its empty matches remove nothing.
   */
  function CleanCoordinator(s: string): (r: string)
    ensures IsStripped(r) && |r| <= |s|
  {
    var e0 := CoordinatorPrefixEnd(s);
    Strip(s[e0..SuffixStart(s, e0)])
  }

  /** A name without whitespace is left as it is. */
  lemma CleanPlainName(n: string)
    requires forall k :: 0 <= k < |n| ==> !IsSpace(n[k])
    ensures CleanCoordinator(n) == n
  {
    if WordAtIgnoreCase(n, 0, "the") {
      assert SpaceRunEnd(n, 3) == 3;
    }
    assert CoordinatorPrefixEnd(n) == 0;
    SuffixStartAt(n, 0, |n|);
    assert n[0..|n|] == n;
    StripStripped(n);
  }

  lemma PrefixOfDecorated(n: string, s: string)
    requires n != "" && IsStripped(n) && "the MFRI " + n <= s
    ensures CoordinatorPrefixEnd(s) == 9
  {
    assert s[..3] == "the";
    assert Lower("the") == "the";
    SpaceRunEndAt(s, 3, 4);
    assert s[4..8] == "MFRI";
    assert Lower("MFRI") == "mfri";
    assert s[8] == ' ' && s[9] == n[0];
    SpaceRunEndAt(s, 8, 9);
  }

  /** Inside the name no suffix match can start: its last character is not whitespace. */
  lemma NoSuffixInside(s: string, last: nat, p: nat)
    requires p <= last < |s| && !IsSpace(s[last])
    requires p < |s| && IsSpace(s[p])
    ensures SpaceRunEnd(s, p) <= last
  {
  }

  /** `the MFRI <name> Office` is cleaned to the name. */
  lemma CleanOffice(n: string)
    requires n != "" && IsStripped(n)
    ensures CleanCoordinator("the MFRI " + n + " Office") == n
  {
    var s := "the MFRI " + n + " Office";
    PrefixOfDecorated(n, s);
    var e := 9 + |n|;
    assert s[9..e] == n;
    assert s[e - 1] == n[|n| - 1];
    assert s[e..] == " Office";
    forall k | 9 <= k < e ensures !OfficeSuffixAt(s, k) {
      NoOfficeSuffixBefore(s, e, k);
    }
    OfficeSuffix(s, e);
    SuffixStartAt(s, 9, e);
    StripStripped(n);
  }

  lemma NoOfficeSuffixBefore(s: string, e: nat, k: nat)
    requires 0 < e && k < e && e + 7 == |s| && s[e..] == " Office" && !IsSpace(s[e - 1])
    ensures !OfficeSuffixAt(s, k)
  {
    if IsSpace(s[k]) {
      NoSuffixInside(s, e - 1, k);
      NotOfficeBefore(s, e, SpaceRunEnd(s, k));
    }
  }

  lemma NoCenterSuffixBefore(s: string, e: nat, k: nat)
    requires 0 < e && k < e && e + 25 == |s| && !IsSpace(s[e - 1])
    requires !IsSpace(s[e + 8]) && !IsSpace(s[e + 17]) && s[|s| - 1] != '\n'
    ensures !OfficeSuffixAt(s, k)
  {
    if IsSpace(s[k]) {
      NoSuffixInside(s, e - 1, k);
      NotSuffixBefore(s, e, SpaceRunEnd(s, k));
    }
  }

  lemma NotOfficeBefore(s: string, e: nat, j: nat)
    requires e + 7 == |s| && j < e
    requires s[e..] == " Office"
    ensures !(WordAtIgnoreCase(s, j, "office") && AtEnd(s, j + 6))
    ensures !(WordAtIgnoreCase(s, j, "regional") && TrainingCenterFrom(s, j + 8))
  {
    assert s[|s| - 1] == 'e' && s[|s| - 6] == 'O';
    assert !WordAtIgnoreCase(s, e + 1, "center") by {
      assert Lower(s[e + 1..e + 7])[0] == LowerChar(s[e + 1]);
    }
  }

  lemma OfficeSuffix(s: string, e: nat)
    requires e + 7 == |s| && s[e..] == " Office"
    ensures OfficeSuffixAt(s, e)
  {
    SuffixSlice(s, e, 0, 7);
    SpacedWord(s, e, "Office", "office");
  }

  /** A slice of a suffix is a slice of the whole. */
  lemma SuffixSlice(s: string, e: nat, a: nat, b: nat)
    requires e <= |s| && a <= b <= |s| - e
    ensures s[e + a..e + b] == s[e..][a..b]
  {
  }

  /** One space then a word at `p`: the run of whitespace ends at the word, which matches ignoring case. */
  lemma SpacedWord(s: string, p: nat, word: string, lower: string)
    requires p + 1 + |word| <= |s| && s[p..p + 1 + |word|] == " " + word
    requires word != [] && !IsSpace(word[0]) && Lower(word) == lower
    ensures SpaceRunEnd(s, p) == p + 1 && WordAtIgnoreCase(s, p + 1, lower)
  {
    var t := s[p..p + 1 + |word|];
    assert s[p] == t[0] && s[p + 1] == t[1] == word[0];
    assert s[p + 1..p + 1 + |word|] == t[1..];
    SpaceRunEndAt(s, p, p + 1);
  }

  /** `the MFRI <name> Regional Training Center` is cleaned to the name. */
  lemma CleanTrainingCenter(n: string)
    requires n != "" && IsStripped(n)
    ensures CleanCoordinator("the MFRI " + n + " Regional Training Center") == n
  {
    var s := "the MFRI " + n + " Regional Training Center";
    PrefixOfDecorated(n, s);
    var e := 9 + |n|;
    assert s[9..e] == n;
    assert s[e - 1] == n[|n| - 1];
    var t := s[e..];
    assert t == " Regional Training Center";
    assert s[e + 8] == t[8] && s[e + 17] == t[17] && s[|s| - 1] == t[24];
    forall k | 9 <= k < e ensures !OfficeSuffixAt(s, k) {
      NoCenterSuffixBefore(s, e, k);
    }
    assert s[e..] == " " + "Regional" + " " + "Training" + " " + "Center";
    RegionalSuffix(s, e);
    SuffixStartAt(s, 9, e);
    StripStripped(n);
  }

  /** The suffix words of `s` sit at fixed places, so no run that ends before `e` can begin them. */
  lemma NotSuffixBefore(s: string, e: nat, j: nat)
    requires e + 25 == |s| && j < e
    requires !IsSpace(s[e + 8]) && !IsSpace(s[e + 17]) && s[|s| - 1] != '\n'
    ensures !(WordAtIgnoreCase(s, j, "office") && AtEnd(s, j + 6))
    ensures !(WordAtIgnoreCase(s, j, "regional") && TrainingCenterFrom(s, j + 8))
  {
    if WordAtIgnoreCase(s, j, "regional") && j + 8 <= |s| {
      var k := SpaceRunEnd(s, j + 8);
      if k > j + 8 && WordAtIgnoreCase(s, k, "training") {
        var m := SpaceRunEnd(s, k + 8);
        if m > k + 8 && WordAtIgnoreCase(s, m, "center") && AtEnd(s, m + 6) {
          assert false;
        }
      }
    }
  }

  lemma RegionalSuffix(s: string, e: nat)
    requires e + 25 == |s| && s[e..] == " " + "Regional" + " " + "Training" + " " + "Center"
    ensures OfficeSuffixAt(s, e)
  {
    SuffixSlice(s, e, 0, 9);
    SpacedWord(s, e, "Regional", "regional");
    SuffixSlice(s, e, 9, 18);
    SpacedWord(s, e + 9, "Training", "training");
    SuffixSlice(s, e, 18, 25);
    SpacedWord(s, e + 18, "Center", "center");
  }
  // ---------------------------------------------------------------- the prober

  /** `BASE_URL_TEMPLATE.split("/{s_code}/")[0]` (all_classes.py:25, 445). */
  const BaseUrlPrefix: string := "https://www.mfri.org/course/msfs/FIRE/101"
  const GenericSearch: string := "/course-search/"

  /** `BASE_URL_TEMPLATE.format(s_code=code, year=year)` */
  function CourseUrl(code: string, year: string): string {
    BaseUrlPrefix + "/" + code + "/" + year + "/"
  }

  /**
   * The last two `/`-separated segments of the URL without its trailing
   * slashes (all_classes.py:430-431); with fewer than two segments the indexing
   * raises IndexError, outside the prober's `try`.
   */
  function UrlTokens(url: string): (r: Option<(string, string)>)
    ensures r.None? <==> '/' !in TrimEndChar(url, '/')
  {
    var parts := Split(TrimEndChar(url, '/'), '/');
    if |parts| < 2 then
      assert '/' !in TrimEndChar(url, '/') by {
        JoinSplit(TrimEndChar(url, '/'), '/');
      }
      None
    else
      assert '/' in TrimEndChar(url, '/') by {
        if '/' !in TrimEndChar(url, '/') { IndexOfAbsent(TrimEndChar(url, '/'), '/'); }
      }
      Some((parts[|parts| - 2], parts[|parts| - 1]))
  }

  /** The probe reads back the code and year of a URL built from the template. */
  lemma CourseUrlTokens(code: string, year: string)
    requires '/' !in code && '/' !in year && year != ""
    ensures UrlTokens(CourseUrl(code, year)) == Some((code, year))
  {
    SlashUrlTokens(BaseUrlPrefix, code, year);
  }

  lemma SlashUrlTokens(prefix: string, code: string, year: string)
    requires '/' !in code && '/' !in year && year != ""
    ensures UrlTokens(prefix + "/" + code + "/" + year + "/") == Some((code, year))
  {
    var v := prefix + "/" + code + "/" + year;
    TrimOneSlash(v);
    assert v == (prefix + ['/'] + code) + ['/'] + year;
    SplitAppend(prefix + ['/'] + code, '/', year);
    SplitAppend(prefix, '/', code);
    IndexOfAbsent(code, '/');
    IndexOfAbsent(year, '/');
    var parts := Split(v, '/');
    assert parts == Split(prefix, '/') + [code] + [year];
  }

  lemma TrimOneSlash(v: string)
    requires v != [] && v[|v| - 1] != '/'
    ensures TrimEndChar(v + "/", '/') == v
  {
    assert (v + "/")[..|v|] == v;
  }

  /** `,\s+\d{4}` at `c`. */
  predicate CommaYearAt(s: string, c: nat) {
    c < |s| && s[c] == ',' &&
    var w := SpaceRunEnd(s, c + 1);
    w > c + 1 && w + 4 <= |s| && AllDigits(s[w..w + 4])
  }

  /** `\s+\d{1,2},\s+\d{4}` at `p`; a second digit must be followed by the comma. */
  predicate DayYearAt(s: string, p: nat)
    requires p <= |s|
  {
    var k := SpaceRunEnd(s, p);
    k > p && k < |s| && IsDigit(s[k])
    && (CommaYearAt(s, k + 1) || (k + 1 < |s| && IsDigit(s[k + 1]) && CommaYearAt(s, k + 2)))
  }

  /** `Start:\s*` then month `m`'s name at `i`, followed by a day and a year. */
  predicate ActiveAt(s: string, i: nat, m: nat)
    requires m < 12
  {
    i + 6 <= |s| && s[i..i + 6] == "Start:" &&
    var j := SpaceRunEnd(s, i + 6);
    var name := MonthNames[m];
    j + |name| <= |s| && s[j..j + |name|] == name && DayYearAt(s, j + |name|)
  }

  /** `ACTIVE_CONTENT_REGEX.search(page)` succeeds (all_classes.py:30-32, 455). */
  predicate ActiveContent(page: string) {
    exists i, m :: 0 <= i < |page| && 0 <= m < 12 && ActiveAt(page, i, m)
  }

  /** A page that prints a start date in the long form is recognised as active. */
  lemma ActiveWitness(pre: string, m: nat, w: string, day: string, year: string, post: string)
    requires m < 12 && AllSpace(w) && (|day| == 1 || |day| == 2) && AllDigits(day)
    requires |year| == 4 && AllDigits(year)
    ensures ActiveContent(pre + "Start:" + w + MonthNames[m] + " " + day + ", " + year + post)
  {
    var rest := " " + day + ", " + year + post;
    var s := pre + "Start:" + w + (MonthNames[m] + rest);
    assert s == pre + "Start:" + w + MonthNames[m] + " " + day + ", " + year + post;
    var i := |pre|;
    assert s[i..i + 6] == "Start:" && s[i + 6..i + 6 + |w|] == w;
    assert s[i + 6 + |w|..] == MonthNames[m] + rest;
    StartMonthDate(s, |pre|, w, m, day, year, post);
  }

  lemma StartMonthDate(s: string, i: nat, w: string, m: nat, day: string, year: string, post: string)
    requires m < 12 && AllSpace(w) && (|day| == 1 || |day| == 2) && AllDigits(day)
    requires |year| == 4 && AllDigits(year)
    requires i + 6 + |w| <= |s| && s[i..i + 6] == "Start:" && s[i + 6..i + 6 + |w|] == w
    requires s[i + 6 + |w|..] == MonthNames[m] + (" " + day + ", " + year + post)
    ensures ActiveContent(s)
  {
    var p := i + 6 + |w| + |MonthNames[m]|;
    NameThenDate(s, i + 6 + |w|, p, MonthNames[m], day, year, post);
    StartThenMonth(s, i, w, m, p);
  }

  lemma NameThenDate(s: string, j: nat, p: nat, name: string, day: string, year: string, post: string)
    requires (|day| == 1 || |day| == 2) && AllDigits(day) && |year| == 4 && AllDigits(year)
    requires j <= |s| && s[j..] == name + (" " + day + ", " + year + post) && p == j + |name|
    ensures p <= |s| && s[j..p] == name && DayYearAt(s, p)
  {
    SplitSuffix(s, j, name, " " + day + ", " + year + post);
    DayYearAfterName(s, p, day, year, post);
  }

  /** A suffix made of two parts: each part sits in its place. */
  lemma SplitSuffix(s: string, j: nat, a: string, b: string)
    requires j <= |s| && s[j..] == a + b
    ensures j + |a| <= |s| && s[j..j + |a|] == a && s[j + |a|..] == b
  {
    assert s[j..][..|a|] == s[j..j + |a|];
    assert s[j..][|a|..] == s[j + |a|..];
  }

  lemma StartThenMonth(s: string, i: nat, w: string, m: nat, p: nat)
    requires m < 12 && AllSpace(w) && p == i + 6 + |w| + |MonthNames[m]| && p <= |s|
    requires s[i..i + 6] == "Start:" && s[i + 6..i + 6 + |w|] == w
    requires s[i + 6 + |w|..p] == MonthNames[m]
    requires DayYearAt(s, p)
    ensures ActiveContent(s)
  {
    var j := i + 6 + |w|;
    MonthNameCapital(m);
    assert s[j] == MonthNames[m][0];
    assert forall k :: i + 6 <= k < j ==> s[k] == w[k - i - 6];
    SpaceRunEndAt(s, i + 6, j);
    assert ActiveAt(s, i, m);
  }

  lemma DayYearAfterName(s: string, p: nat, day: string, year: string, post: string)
    requires p <= |s| && s[p..] == " " + day + ", " + year + post
    requires (|day| == 1 || |day| == 2) && AllDigits(day) && |year| == 4 && AllDigits(year)
    ensures DayYearAt(s, p)
  {
    var t := s[p..];
    assert s[p] == t[0] == ' ';
    assert s[p + 1] == t[1] == day[0];
    SpaceRunEndAt(s, p, p + 1);
    var c := p + 1 + |day|;
    assert s[c] == t[1 + |day|] == ',';
    assert s[c + 1] == t[2 + |day|] == ' ';
    assert s[c + 2] == t[3 + |day|] == year[0];
    SpaceRunEndAt(s, c + 1, c + 2);
    assert s[c + 2..c + 6] == t[3 + |day|..7 + |day|] == year;
    assert CommaYearAt(s, c);
    if |day| == 2 {
      assert s[p + 2] == t[2] == day[1];
    }
  }

  /** What the HTTP request gave: a response, or an exception of the requests library. */
  datatype Fetch = Response(status: int, finalUrl: string, text: string) | RequestFailed

  datatype ProbeResult = Active(page: string, finalUrl: string) | NotActive | UrlIndexError

  /**
   * `is_page_active_candidate` (all_classes.py:429-466): a page counts when the
   * request succeeded with status 200, was not redirected to the generic search
   * page, still names the probed code and year, and prints a start date.
   */
  function Probe(url: string, fetch: Fetch): (r: ProbeResult)
    ensures r.UrlIndexError? <==> UrlTokens(url).None?
    ensures r.Active? <==>
              UrlTokens(url).Some? && fetch.Response? && fetch.status == 200
              && !(Contains(fetch.finalUrl, GenericSearch) && Contains(url, BaseUrlPrefix) && !Contains(url, GenericSearch))
              && Contains(fetch.finalUrl, UrlTokens(url).value.0) && Contains(fetch.finalUrl, UrlTokens(url).value.1)
              && ActiveContent(fetch.text)
    ensures r.Active? ==>
              fetch.Response? && fetch.status == 200 && ActiveContent(fetch.text)
              && r.page == fetch.text && r.finalUrl == fetch.finalUrl
              && Contains(r.finalUrl, UrlTokens(url).value.0) && Contains(r.finalUrl, UrlTokens(url).value.1)
  {
    match UrlTokens(url)
    case None => UrlIndexError
    case Some((code, year)) =>
      match fetch
      case RequestFailed => NotActive
      case Response(status, finalUrl, text) =>
        if status != 200 then NotActive
        else if Contains(finalUrl, GenericSearch) && Contains(url, BaseUrlPrefix) && !Contains(url, GenericSearch) then NotActive
        else if !(Contains(finalUrl, code) && Contains(finalUrl, year)) then NotActive
        else if ActiveContent(text) then Active(text, finalUrl)
        else NotActive
  }

  /** Probing a template URL never fails on its tokens, and a failed request or a non-200 status is never active. */
  lemma ProbeCourseUrl(code: string, year: string, fetch: Fetch)
    requires '/' !in code && '/' !in year && year != ""
    ensures !Probe(CourseUrl(code, year), fetch).UrlIndexError?
    ensures fetch.RequestFailed? || fetch.status != 200 ==> Probe(CourseUrl(code, year), fetch) == NotActive
  {
    CourseUrlTokens(code, year);
  }
  // ---------------------------------------------------------------- one page's record

  /**
   * What the detail-page parser pulls out of a page by DOM navigation and
   * regular-expression searches (all_classes.py:134-421); `None` where the
   * element or the match was not found.
   */
  datatype PageFields = PageFields(
    logNumber: Option<string>,          // group 1 of `Log Number:\s*([A-Z0-9\-S]+)`
    hours: Option<string>,              // group 1 of `Instructional Hours:\s*([\d\.]+)`
    registerLink: Option<string>,       // the Register link, made absolute
    startRaw: Option<string>,           // group 1 of the `Start:` search in the "Date:" text
    endRaw: Option<string>,             // group 1 of the `End:` search
    startTime: Option<string>,          // group 1 of the `First Session Start Time:` search
    endTime: Option<string>,            // group 1 of the combined `End Time:` search
    laterEndTime: Option<string>,       // group 1 of `End Time:` in the text after the start time
    daysSection: Option<string>,        // the text under "Days and Times:"
    daysTimeRange: Option<string>,      // group 1 of the time-range search in that text
    daysTime: Option<string>,           // group 1 of the single-time search in that text
    opensRaw: Option<string>,           // group 1 of the `Registration Opens:` search
    closesRaw: Option<string>,          // group 1 of the `Registration Closes:` search
    locationSection: Option<string>,    // the text under "Location:"
    locationParagraph: Option<string>,  // the text of a paragraph matching `Location:`
    coordinator: Option<string>,        // the office link's text, or the text after "Coordinated by:"
    contactHref: Option<string>)        // the href of the mailto: link

  /** The optional capture, stripped, or "N/A". */
  function StrippedOrNA(o: Option<string>): string {
    if o.Some? then Strip(o.value) else "N/A"
  }

  /** A scraped date as the record stores it: `format_date_mdy` of the capture, or of "N/A" when there is none. */
  function ScrapedDate(raw: Option<string>): string {
    FormatDateMdy(raw.GetOr("N/A"))
  }

  /**
   * The days and the first class time a page yields (all_classes.py:202-294).
   * The days are `DaysOf` the "Days and Times:" section, or "N/A" without one.
   * The time joins the "First Session Start Time:" capture with the end time,
   * which is the combined `End Time:` capture unless that leaves "N/A", and then
   * the later `End Time:` capture; when this gives "N/A" and the page has a
   * "Days and Times:" section, the section's time range, else its single time,
   * is used instead.
   */
  predicate ScheduleOf(p: PageFields, days: string, time: string) {
    var start := StrippedOrNA(p.startTime);
    var end := if start == "N/A" then "N/A"
               else if p.endTime.Some? && Strip(p.endTime.value) != "N/A" then Strip(p.endTime.value)
               else StrippedOrNA(p.laterEndTime);
    var dated := FirstClassTime(start, end);
    days == (if Truthy(p.daysSection) then DaysOf(p.daysSection.value) else "N/A")
    && time == (if dated != "N/A" || !Truthy(p.daysSection) then dated
                else if p.daysTimeRange.Some? then Strip(p.daysTimeRange.value)
                else StrippedOrNA(p.daysTime))
  }

  /**
   * The location text and the joined table fields a page yields
   * (all_classes.py:325-370): the stripped "Location:" section, unless it is
   * missing, empty or "N/A", in which case a "Location:" paragraph with the
   * label removed, else "N/A"; the fields are those of the join, which runs
   * only on a location that is neither empty nor "N/A".
   */
  predicate PlaceSpec(p: PageFields, lookup: seq<Place>, location: string, loc: LocationFields) {
    location == (if Truthy(p.locationSection) && Strip(p.locationSection.value) != "N/A"
                 then Strip(p.locationSection.value)
                 else if p.locationParagraph.Some? then Strip(Replace(p.locationParagraph.value, "Location:", ""))
                 else "N/A")
    && loc == (if location != "" && location != "N/A" && BestIndex(lookup, location).Some?
               then lookup[BestIndex(lookup, location).value].fields
               else NoLocation)
  }

  /**
   * The days and the first class time (all_classes.py:202-294), as
   * `ScheduleOf` states them: the days name a day abbreviation or are "N/A";
   * a start time found in the "Date:" section always leads the class time.
   */
  method Schedule(p: PageFields) returns (days: string, firstClassTime: string)
    ensures ScheduleOf(p, days, firstClassTime)
    ensures days == "N/A" || NamesDayAbbrev(days)
    ensures p.startTime.Some? && Strip(p.startTime.value) != "N/A"
            ==> StartsWith(firstClassTime, Strip(p.startTime.value))
    ensures p.startTime.Some? && Strip(p.startTime.value) != "N/A" && p.endTime.None? && p.laterEndTime.None?
            ==> firstClassTime == Strip(p.startTime.value)
    ensures p.startTime.None? && !Truthy(p.daysSection) ==> firstClassTime == "N/A"
  {
    var startTime := StrippedOrNA(p.startTime);
    var endTime := if p.endTime.Some? && startTime != "N/A" then Strip(p.endTime.value) else "N/A";
    if endTime == "N/A" && startTime != "N/A" && p.laterEndTime.Some? {
      endTime := Strip(p.laterEndTime.value);
    }
    firstClassTime := FirstClassTime(startTime, endTime);
    if Truthy(p.daysSection) {
      days := DaysOf(p.daysSection.value);
      if firstClassTime == "N/A" {
        if p.daysTimeRange.Some? {
          firstClassTime := Strip(p.daysTimeRange.value);
        } else if p.daysTime.Some? {
          firstClassTime := Strip(p.daysTime.value);
        }
      }
    } else {
      days := "N/A";
    }
  }

  /**
   * The location text and the joined table fields (all_classes.py:325-370), as
   * `PlaceSpec` states them: a section that is present and not "N/A" wins, and
   * the fields are those of the longest table name the location contains.
   */
  method PlaceOf(p: PageFields, lookup: seq<Place>) returns (location: string, loc: LocationFields)
    ensures PlaceSpec(p, lookup, location, loc)
    ensures Truthy(p.locationSection) && Strip(p.locationSection.value) != "N/A"
            ==> location == Strip(p.locationSection.value)
    ensures loc != NoLocation ==> exists k :: 0 <= k < |lookup| && Occurs(lookup, location, k) && loc == lookup[k].fields
  {
    location := if Truthy(p.locationSection) then Strip(p.locationSection.value) else "N/A";
    if location == "N/A" && p.locationParagraph.Some? {
      location := Strip(Replace(p.locationParagraph.value, "Location:", ""));
    }
    loc := NoLocation;
    if location != "" && location != "N/A" {
      var best := BestMatch(lookup, location);
      if best.Some? {
        loc := best.value;
      }
    }
    if loc != NoLocation {
      BestIndexSpec(lookup, location);
    }
  }

  /**
   * `parse_individual_course_page_details` once the page's values are extracted
   * (all_classes.py:97-421): there is no record without a course id; otherwise
   * every field is the value the page yields, the dates normalised by
   * `format_date_mdy`, and the coordinator and contact "N/A" when empty.
   */
  method AssembleDetails(p: PageFields, courseUrl: string, lookup: seq<Place>, now: string)
    returns (r: Option<Course>)
    ensures r.None? <==> StrippedOrNA(p.logNumber) == "N/A"
    ensures r.Some? ==>
              var c := r.value;
              c.courseId == Some(StrippedOrNA(p.logNumber)) && c.courseUrl == Some(courseUrl)
              && c.registerLink == Some(p.registerLink.GetOr("N/A")) && c.classUrl.None?
              && c.startDate == Some(ScrapedDate(p.startRaw)) && c.endDate == Some(ScrapedDate(p.endRaw))
              && c.registrationOpens == Some(ScrapedDate(p.opensRaw)) && c.registrationCloses == Some(ScrapedDate(p.closesRaw))
              && c.days.Some? && c.firstClassTime.Some? && ScheduleOf(p, c.days.value, c.firstClassTime.value)
              && c.location.Some? && PlaceSpec(p, lookup, c.location.value, c.loc)
              && c.instructionalHours == Some(StrippedOrNA(p.hours))
              && c.coordinateBy.Some? && c.contact.Some? && c.currentDate == Some(now)
    ensures r.Some? ==>
              var c := r.value;
              var coordinator := if p.coordinator.Some? then CleanCoordinator(p.coordinator.value) else "N/A";
              var contact := if p.contactHref.Some? then Strip(Replace(p.contactHref.value, "mailto:", "")) else "N/A";
              c.coordinateBy.value == (if coordinator != "" then coordinator else "N/A")
              && c.contact.value == (if contact != "" then contact else "N/A")
  {
    var courseId := StrippedOrNA(p.logNumber);
    if courseId == "N/A" {
      return None;
    }
    var days, firstClassTime := Schedule(p);
    var location, loc := PlaceOf(p, lookup);
    var coordinator := if p.coordinator.Some? then CleanCoordinator(p.coordinator.value) else "N/A";
    var contact := if p.contactHref.Some? then Strip(Replace(p.contactHref.value, "mailto:", "")) else "N/A";
    r := Some(Course(
      courseId := Some(courseId),
      courseUrl := Some(courseUrl),
      registerLink := Some(p.registerLink.GetOr("N/A")),
      classUrl := None,
      startDate := Some(ScrapedDate(p.startRaw)),
      endDate := Some(ScrapedDate(p.endRaw)),
      firstClassTime := Some(firstClassTime),
      days := Some(days),
      registrationOpens := Some(ScrapedDate(p.opensRaw)),
      registrationCloses := Some(ScrapedDate(p.closesRaw)),
      location := Some(location),
      instructionalHours := Some(StrippedOrNA(p.hours)),
      coordinateBy := Some(if coordinator != "" then coordinator else "N/A"),
      contact := Some(if contact != "" then contact else "N/A"),
      loc := loc,
      currentDate := Some(now)));
  }

  /**
   * Every date field of an assembled record is "N/A", the scraped text, or a
   * canonical MM-DD-YYYY date, and normalising it again changes nothing.
   */
  lemma ScrapedDateNormal(raw: Option<string>)
    ensures ScrapedDate(raw) == "N/A" || (raw.Some? && ScrapedDate(raw) == raw.value) || IsCanonical(ScrapedDate(raw))
    ensures raw.None? ==> ScrapedDate(raw) == "N/A"
    ensures FormatDateMdy(ScrapedDate(raw)) == ScrapedDate(raw)
  {
    FormatDateMdyIdempotent(raw.GetOr("N/A"));
  }
}

=== FILE: listing.dfy ===
/**
 * The listing-page scraper (classes.py): one record per event item of the
 * Firefighter I listing, built from the texts the page's headings hold. The
 * DOM navigation is not modelled; each item arrives as the strings, `<nobr>`
 * texts and content parts that the scraper reads from it.
 */
module Listing {
  import opened Wrappers
  import opened Strings
  import opened Records
  import opened Locations
  import opened Searching

  // ---------------------------------------------------------------- extract_text_after_colon

  /** String `j` is non-empty, does not contain the label, and follows a string that does. */
  predicate AnswerAt(strings: seq<string>, key: string, j: nat)
    requires j < |strings|
  {
    strings[j] != "" && !Contains(strings[j], key) && exists i :: 0 <= i < j && Contains(strings[i], key)
  }

  lemma FirstAnswerUnique(strings: seq<string>, key: string, i: nat)
    requires i < |strings| && AnswerAt(strings, key, i)
    requires forall j :: 0 <= j < i ==> !AnswerAt(strings, key, j)
    ensures forall j :: 0 <= j < |strings| && AnswerAt(strings, key, j) && (forall k :: 0 <= k < j ==> !AnswerAt(strings, key, k))
                        ==> j == i
  {
  }

  /**
   * `extract_text_after_colon` (classes.py:17-29) over the tag's stripped
   * strings: the first non-empty string after a string containing the label
   * that does not itself contain it; failing that, the text of the `<nobr>`
   * after the label, stripped; `None` when there is no tag.
   */
  method TextAfterLabel(tag: Option<seq<string>>, key: string, nobrText: Option<string>)
    returns (r: Option<string>)
    ensures tag.None? ==> r.None?
    ensures tag.Some? && (forall j :: 0 <= j < |tag.value| ==> !AnswerAt(tag.value, key, j))
            ==> r == (if nobrText.Some? then Some(Strip(nobrText.value)) else None)
    ensures tag.Some? ==>
              forall j :: 0 <= j < |tag.value| && AnswerAt(tag.value, key, j)
                          && (forall k :: 0 <= k < j ==> !AnswerAt(tag.value, key, k))
                          ==> r == Some(Strip(tag.value[j]))
  {
    if tag.None? {
      return None;
    }
    var strings := tag.value;
    var found := false;
    ghost var w := 0;
    for i := 0 to |strings|
      invariant found ==> w < i && Contains(strings[w], key)
      invariant !found ==> forall k :: 0 <= k < i ==> !Contains(strings[k], key)
      invariant forall j :: 0 <= j < i ==> !AnswerAt(strings, key, j)
    {
      if Contains(strings[i], key) {
        found, w := true, i;
      } else if found && strings[i] != "" {
        assert AnswerAt(strings, key, i);
        FirstAnswerUnique(strings, key, i);
        return Some(Strip(strings[i]));
      }
    }
    r := if nobrText.Some? then Some(Strip(nobrText.value)) else None;
  }

  // ---------------------------------------------------------------- classUrl

  const ClassUrlBase := "https://www.mfri.org/course/msfs/FIRE/101/"

  /**
   * The class page of a course id (classes.py:101-108): the base URL, the
   * second-to-last `-` piece of the id, `/`, the last piece. An id without a
   * `-` has one piece, and indexing the second-to-last raises IndexError.
   */
  function ClassUrl(courseId: Option<string>): (r: Result<Option<string>>)
    ensures r.Failure? <==> Truthy(courseId) && '-' !in courseId.value
    ensures !Truthy(courseId) ==> r == Success(None)
    ensures r.Success? && Truthy(courseId) ==> r.value.Some? && StartsWith(r.value.value, ClassUrlBase)
  {
    if !Truthy(courseId) then Success(None)
    else
      var parts := Split(courseId.value, '-');
      if |parts| < 2 then Failure("IndexError: list index out of range")
      else Success(Some(ClassUrlBase + parts[|parts| - 2] + "/" + parts[|parts| - 1]))
  }

  /** An id made of `-`-separated pieces gives the URL ending in its last two pieces. */
  lemma ClassUrlOfPieces(pieces: seq<string>)
    requires |pieces| >= 2 && forall p :: p in pieces ==> '-' !in p
    ensures ClassUrl(Some(Join(pieces, "-")))
            == Success(Some(ClassUrlBase + pieces[|pieces| - 2] + "/" + pieces[|pieces| - 1]))
  {
    SplitJoin(pieces, '-');
    assert Join(pieces, "-") == pieces[0] + "-" + Join(pieces[1..], "-");
  }

  // ---------------------------------------------------------------- first class time

  /** A `<nobr>`'s single string, stripped, or "" when it has none. */
  function TimePart(o: Option<string>): string {
    if Truthy(o) then Strip(o.value) else ""
  }

  /**
   * The time rule (classes.py:127-138, 155-166): "start - end" unless both
   * parts are empty, which gives `None`.
   */
  function TimeText(start: string, end: string): (r: Option<string>)
    ensures r.None? <==> start == "" && end == ""
    ensures r.Some? ==> StartsWith(r.value, start) && r.value[|start|..] == " - " + end
  {
    var t := start + " - " + end;
    if start != "" || end != "" then (if t == " - " then None else Some(t)) else None
  }

  // ---------------------------------------------------------------- days

  /** A child of a heading: a text node, a `<span>` (its single string, if any) or another element. */
  datatype Part = TextPart(text: string) | SpanPart(str: Option<string>) | OtherPart

  const Weekdays: seq<string> := ["monday", "tuesday", "wednesday", "thursday", "friday", "saturday", "sunday"]

  /** Some weekday name occurs in `s`, ignoring case. */
  predicate NamesWeekday(s: string) {
    exists k :: 0 <= k < |Weekdays| && Contains(Lower(s), Weekdays[k])
  }

  /**
   * What the days fallback collects from one child (classes.py:182-216): a
   * non-empty stripped text naming a weekday and not containing
   * "First Class Time:", or the stripped string of a span naming a weekday.
   */
  function DayCandidate(p: Part): (r: Option<string>)
    ensures r.Some? ==> NamesWeekday(r.value) && IsStripped(r.value)
    ensures r.Some? && p.TextPart? ==> !Contains(r.value, "First Class Time:")
  {
    match p
    case TextPart(t) =>
      var s := Strip(t);
      if s != "" && NamesWeekday(s) && !Contains(s, "First Class Time:") then Some(s) else None
    case SpanPart(o) =>
      if Truthy(o) && NamesWeekday(Strip(o.value)) then Some(Strip(o.value)) else None
    case OtherPart => None
  }

  /** The last candidate among the children: `possible_day_strings[-1]`, or `None`. */
  function LastDayCandidate(parts: seq<Part>): Option<string> {
    LastSome(parts, DayCandidate)
  }

  /** The fallback yields nothing exactly when no child is a candidate, and otherwise the last candidate. */
  lemma LastDayCandidateSpec(parts: seq<Part>)
    ensures LastDayCandidate(parts).None? <==> forall i :: 0 <= i < |parts| ==> DayCandidate(parts[i]).None?
    ensures LastDayCandidate(parts).Some? ==>
              exists i :: 0 <= i < |parts| && DayCandidate(parts[i]) == LastDayCandidate(parts)
                          && forall j :: i < j < |parts| ==> DayCandidate(parts[j]).None?
  {
    LastSomeSpec(parts, DayCandidate);
  }

  method DaysFallback(parts: seq<Part>) returns (days: Option<string>)
    ensures days == LastDayCandidate(parts)
  {
    var possible: seq<string> := [];
    for i := 0 to |parts|
      invariant possible == [] <==> LastDayCandidate(parts[..i]).None?
      invariant possible != [] ==> LastDayCandidate(parts[..i]) == Some(possible[|possible| - 1])
    {
      assert parts[..i + 1][..i] == parts[..i];
      var candidate := DayCandidate(parts[i]);
      if candidate.Some? {
        possible := possible + [candidate.value];
      }
    }
    assert parts[..|parts|] == parts;
    days := if possible != [] then Some(possible[|possible| - 1]) else None;
  }

  // ---------------------------------------------------------------- location text

  /** A text child with non-breaking spaces made spaces, stripped. */
  function Cleaned(t: string): string {
    Strip(ReplaceChar(t, Nbsp, ' '))
  }

  predicate HasLocationText(p: Part) {
    p.TextPart? && Cleaned(p.text) != ""
  }

  function LocationCandidate(p: Part): Option<string> {
    if HasLocationText(p) then Some(Cleaned(p.text)) else None
  }

  /** The first text child that is not blank once cleaned (classes.py:284-290). */
  function FirstLocationText(parts: seq<Part>): Option<string> {
    FirstSome(parts, LocationCandidate)
  }

  lemma FirstLocationTextSpec(parts: seq<Part>)
    ensures FirstLocationText(parts).None? <==> forall i :: 0 <= i < |parts| ==> !HasLocationText(parts[i])
    ensures FirstLocationText(parts).Some? ==>
              exists i :: 0 <= i < |parts| && HasLocationText(parts[i])
                          && FirstLocationText(parts) == Some(Cleaned(parts[i].text))
                          && forall j :: 0 <= j < i ==> !HasLocationText(parts[j])
  {
    FirstSomeSpec(parts, LocationCandidate);
  }

  method LocationText(parts: seq<Part>) returns (location: Option<string>)
    ensures location == FirstLocationText(parts)
  {
    var text := "";
    var i := 0;
    while i < |parts|
      invariant i <= |parts|
      invariant text == "" && FirstLocationText(parts) == FirstLocationText(parts[i..])
    {
      assert parts[i..] == [parts[i]] + parts[i + 1..];
      if parts[i].TextPart? {
        var cleaned := Strip(ReplaceChar(parts[i].text, Nbsp, ' '));
        if cleaned != "" {
          text := cleaned;
          break;
        }
      }
      i := i + 1;
    }
    location := if text != "" then Some(text) else None;
  }

  // ---------------------------------------------------------------- contact

  /** A link in the coordination heading: its href and its text, stripped. */
  datatype Anchor = Anchor(href: Option<string>, text: string)

  /** A mailto link whose text or address equals the contact text, ignoring case. */
  predicate MatchesContact(a: Anchor, contact: string) {
    a.href.Some? && StartsWith(a.href.value, "mailto:")
    && (EqualsIgnoreCase(contact, a.text) || EqualsIgnoreCase(contact, a.href.value[7..]))
  }

  /** The address of the first matching link, or the contact text. */
  function ContactOf(contact: string, anchors: seq<Anchor>): string {
    if anchors == [] then contact
    else if MatchesContact(anchors[0], contact) then anchors[0].href.value[7..]
    else ContactOf(contact, anchors[1..])
  }

  /** Without a matching link the contact text stays. */
  lemma {:induction false} ContactOfNoMatch(contact: string, anchors: seq<Anchor>)
    requires forall i :: 0 <= i < |anchors| ==> !MatchesContact(anchors[i], contact)
    ensures ContactOf(contact, anchors) == contact
  {
    if anchors != [] {
      ContactOfNoMatch(contact, anchors[1..]);
    }
  }

  /** With a matching link the contact becomes the address of the first one. */
  lemma {:induction false} ContactOfFirstMatch(contact: string, anchors: seq<Anchor>, i: nat)
    requires i < |anchors| && MatchesContact(anchors[i], contact)
    requires forall j :: 0 <= j < i ==> !MatchesContact(anchors[j], contact)
    ensures ContactOf(contact, anchors) == anchors[i].href.value[7..]
  {
    if i > 0 {
      assert anchors[1..][i - 1] == anchors[i];
      ContactOfFirstMatch(contact, anchors[1..], i - 1);
    }
  }

  /** The contact loop (classes.py:361-392), leaving at the first matching link. */
  method SelectContact(contact: string, anchors: seq<Anchor>) returns (r: string)
    ensures r == ContactOf(contact, anchors)
  {
    r := contact;
    var i := 0;
    while i < |anchors|
      invariant i <= |anchors|
      invariant r == contact && ContactOf(contact, anchors) == ContactOf(contact, anchors[i..])
    {
      assert anchors[i..] == [anchors[i]] + anchors[i + 1..];
      var a := anchors[i];
      if a.href.Some? && a.href.value != "" && StartsWith(a.href.value, "mailto:") {
        var email := a.href.value[7..];
        if EqualsIgnoreCase(contact, a.text) || EqualsIgnoreCase(contact, email) {
          r := email;
          break;
        }
        // The source's second test (an address-like text equal to the address)
        // is covered by the first, so it never applies.
      }
      i := i + 1;
    }
  }

  // ---------------------------------------------------------------- one item

  /**
   * The date/time/days heading: its `<nobr>` strings, the strings of the (at
   * most two) `<nobr>`s after a "First Class Time:" text if there is one, the
   * days span's string and the heading's children.
   */
  datatype DateBlock = DateBlock(
    nobrs: seq<Option<string>>,
    timeSiblings: Option<seq<Option<string>>>,
    daysSpan: Option<string>,
    contents: seq<Part>)

  /** What the scraper reads from one event item; `None` where an element is missing. */
  datatype ListingItem = ListingItem(
    idText: Option<string>,                      // first child of the id heading
    registerLink: Option<string>,                // the Register link, made absolute
    dates: Option<DateBlock>,
    registration: Option<seq<Option<string>>>,   // `<nobr>` strings of the registration heading
    location: Option<seq<Part>>,                 // children of the location heading
    coordinator: Option<string>,                 // group 1 of the "Coordinated by:" search
    contact: Option<string>,                     // group 1 of the "For questions contact:" search
    anchors: seq<Anchor>)                        // links of the coordination heading

  /** `nobr.string.strip() if nobr.string else None` for the first two `<nobr>`s, when there are two. */
  function NobrDate(nobrs: seq<Option<string>>, k: nat): (r: Option<string>)
    requires k < 2
    ensures r.Some? ==> |nobrs| >= 2 && Truthy(nobrs[k]) && r.value == Strip(nobrs[k].value)
    ensures |nobrs| >= 2 && Truthy(nobrs[k]) ==> r == Some(Strip(nobrs[k].value))
    ensures r.None? <==> |nobrs| < 2 || !Truthy(nobrs[k])
  {
    if |nobrs| >= 2 && Truthy(nobrs[k]) then Some(Strip(nobrs[k].value)) else None
  }

  /** The first class time: from the third and fourth `<nobr>`s, else from the two after "First Class Time:". */
  function TimeOf(b: DateBlock): Option<string> {
    if |b.nobrs| >= 4 then TimeText(TimePart(b.nobrs[2]), TimePart(b.nobrs[3]))
    else if b.timeSiblings.Some? && |b.timeSiblings.value| == 2 then
      TimeText(TimePart(b.timeSiblings.value[0]), TimePart(b.timeSiblings.value[1]))
    else None
  }

  /** The days: the days span's string, stripped, else the fallback over the heading's children. */
  function DaysOfBlock(b: DateBlock): Option<string> {
    if Truthy(b.daysSpan) then Some(Strip(b.daysSpan.value)) else LastDayCandidate(b.contents)
  }

  /** The join: the chosen entry's fields when the location is non-empty and an entry matches. */
  function JoinedFields(lookup: seq<Place>, location: Option<string>): LocationFields {
    if Truthy(location) then BestFields(lookup, location.value).GetOr(NoLocation) else NoLocation
  }

  /** The record `extract_courses` appends for one item (classes.py:49-394), or the exception it raises. */
  function ListingRecord(item: ListingItem, lookup: seq<Place>, now: string): Result<Course>
  {
    var courseId := if item.idText.Some? then Some(Strip(item.idText.value)) else None;
    match ClassUrl(courseId)
    case Failure(e) => Failure(e)
    case Success(classUrl) =>
      var location := if item.location.Some? then FirstLocationText(item.location.value) else None;
      var opens := if item.registration.Some? then NobrDate(item.registration.value, 0) else None;
      var closes := if item.registration.Some? then NobrDate(item.registration.value, 1) else None;
      Success(Course(
        courseId := courseId,
        courseUrl := None,
        registerLink := item.registerLink,
        classUrl := classUrl,
        startDate := if item.dates.Some? then NobrDate(item.dates.value.nobrs, 0) else None,
        endDate := if item.dates.Some? then NobrDate(item.dates.value.nobrs, 1) else None,
        firstClassTime := if item.dates.Some? then TimeOf(item.dates.value) else None,
        days := if item.dates.Some? then DaysOfBlock(item.dates.value) else None,
        registrationOpens := opens,
        registrationCloses := closes,
        location := location,
        instructionalHours := None,
        coordinateBy := if item.coordinator.Some? then Some(Strip(item.coordinator.value)) else None,
        contact := if item.contact.Some? then Some(ContactOf(Strip(item.contact.value), item.anchors)) else None,
        loc := JoinedFields(lookup, location),
        currentDate := Some(now)))
  }

  /**
   * The record keeps the stripped id and the time of the run, has a class URL
   * exactly when the id is non-empty, and holds the fields of the entry the
   * join chooses for its location; only an id without a `-` raises.
   */
  lemma ListingRecordShape(item: ListingItem, lookup: seq<Place>, now: string)
    ensures ListingRecord(item, lookup, now).Failure?
            <==> item.idText.Some? && Strip(item.idText.value) != "" && '-' !in Strip(item.idText.value)
    ensures ListingRecord(item, lookup, now).Success? ==>
              var c := ListingRecord(item, lookup, now).value;
              c.courseId == (if item.idText.Some? then Some(Strip(item.idText.value)) else None)
              && (c.classUrl.Some? <==> Truthy(c.courseId))
              && c.courseUrl.None? && c.instructionalHours.None? && c.currentDate == Some(now)
              && (item.dates.None? ==> c.startDate.None? && c.endDate.None? && c.firstClassTime.None? && c.days.None?)
              && (c.location.Some? ==> c.location.value != "")
              && (c.location.None? || BestIndex(lookup, c.location.value).None? ==> c.loc == NoLocation)
              && (c.location.Some? && BestIndex(lookup, c.location.value).Some?
                  ==> c.loc == lookup[BestIndex(lookup, c.location.value).value].fields)
              && (item.contact.None? <==> c.contact.None?)
  {
    if item.location.Some? {
      FirstLocationTextSpec(item.location.value);
    }
  }

  /** One pass of the item loop of `extract_courses`. */
  method ExtractItem(item: ListingItem, lookup: seq<Place>, now: string) returns (r: Result<Course>)
    ensures r == ListingRecord(item, lookup, now)
  {
    var courseId := if item.idText.Some? then Some(Strip(item.idText.value)) else None;
    var classUrl := ClassUrl(courseId);
    if classUrl.Failure? {
      return Failure(classUrl.error);
    }
    var startDate, endDate, firstClassTime, days := None, None, None, None;
    if item.dates.Some? {
      var b := item.dates.value;
      startDate, endDate := NobrDate(b.nobrs, 0), NobrDate(b.nobrs, 1);
      firstClassTime := TimeOf(b);
      if b.daysSpan.Some? && b.daysSpan.value != "" {
        days := Some(Strip(b.daysSpan.value));
      } else {
        days := DaysFallback(b.contents);
      }
    }
    var location := None;
    if item.location.Some? {
      location := LocationText(item.location.value);
    }
    var loc := NoLocation;
    if location.Some? && location.value != "" {
      var best := BestMatch(lookup, location.value);
      if best.Some? {
        loc := best.value;
      }
    }
    var contact := None;
    if item.contact.Some? {
      var selected := SelectContact(Strip(item.contact.value), item.anchors);
      contact := Some(selected);
    }
    r := Success(Course(
      courseId := courseId,
      courseUrl := None,
      registerLink := item.registerLink,
      classUrl := classUrl.value,
      startDate := startDate,
      endDate := endDate,
      firstClassTime := firstClassTime,
      days := days,
      registrationOpens := if item.registration.Some? then NobrDate(item.registration.value, 0) else None,
      registrationCloses := if item.registration.Some? then NobrDate(item.registration.value, 1) else None,
      location := location,
      instructionalHours := None,
      coordinateBy := if item.coordinator.Some? then Some(Strip(item.coordinator.value)) else None,
      contact := contact,
      loc := loc,
      currentDate := Some(now)));
  }

  /**
   * `extract_courses` over the page's event items (classes.py:39-396): one
   * record per item in document order, an empty list for no items, and the
   * first item's exception, if any, ends the whole extraction.
   */
  method ExtractCourses(items: seq<ListingItem>, lookup: seq<Place>, now: string)
    returns (r: Result<seq<Course>>)
    ensures r.Success? <==> forall i :: 0 <= i < |items| ==> ListingRecord(items[i], lookup, now).Success?
    ensures r.Success? ==> |r.value| == |items|
                           && forall i :: 0 <= i < |items| ==> r.value[i] == ListingRecord(items[i], lookup, now).value
  {
    if items == [] {
      return Success([]);
    }
    var courses: seq<Course> := [];
    for i := 0 to |items|
      invariant |courses| == i
      invariant forall k :: 0 <= k < i ==> ListingRecord(items[k], lookup, now).Success?
                                            && courses[k] == ListingRecord(items[k], lookup, now).value
    {
      var record := ExtractItem(items[i], lookup, now);
      if record.Failure? {
        return Failure(record.error);
      }
      courses := courses + [record.value];
    }
    r := Success(courses);
  }
}

=== FILE: locations.dfy ===
/**
 * The locations lookup table that both scrapers build from the locations file,
 * and the longest-substring join that attaches a table entry to a course.
 * A Python dict keeps insertion order, so the table is a sequence of places
 * with distinct names, in the order their names were first inserted.
 */
module Locations {
  import opened Wrappers
  import opened Strings
  import opened Records

  /** One table entry: a canonical location name and the fields of the first file entry with that name. */
  datatype Place = Place(name: string, fields: LocationFields)

  /** Python's `name in locations_lookup`. */
  predicate HasName(t: seq<Place>, n: string) {
    exists k :: 0 <= k < |t| && t[k].name == n
  }

  /** Entry `i` of the file has a non-empty name that no earlier entry has. */
  predicate FirstWithName(entries: seq<LocationEntry>, i: nat)
    requires i < |entries|
  {
    Truthy(entries[i].name) && forall j :: 0 <= j < i ==> entries[j].name != entries[i].name
  }

  /**
   * The table after the building loop has seen `entries`
   * (all_classes.py:490-495, classes.py:415-418): an entry is inserted when its
   * name is non-empty and not yet in the table.
   */
  function LookupOf(entries: seq<LocationEntry>): (t: seq<Place>)
    ensures forall k :: 0 <= k < |t| ==> t[k].name != ""
    ensures forall a, b :: 0 <= a < b < |t| ==> t[a].name != t[b].name
  {
    if entries == [] then []
    else
      var prev := LookupOf(entries[..|entries| - 1]);
      var e := entries[|entries| - 1];
      if Truthy(e.name) && !HasName(prev, e.name.value) then prev + [Place(e.name.value, e.fields)]
      else prev
  }

  method BuildLookup(entries: seq<LocationEntry>) returns (t: seq<Place>)
    ensures t == LookupOf(entries)
  {
    t := [];
    for i := 0 to |entries|
      invariant t == LookupOf(entries[..i])
    {
      assert entries[..i + 1][..i] == entries[..i];
      var e := entries[i];
      if e.name.Some? && e.name.value != "" && !HasName(t, e.name.value) {
        t := t + [Place(e.name.value, e.fields)];
      }
    }
    assert entries[..|entries|] == entries;
  }

  /** Every non-empty name of the file is a key of the table. */
  lemma {:induction false} LookupCovers(entries: seq<LocationEntry>, j: nat)
    requires j < |entries| && Truthy(entries[j].name)
    ensures HasName(LookupOf(entries), entries[j].name.value)
    decreases |entries|
  {
    var n := |entries| - 1;
    var prev := LookupOf(entries[..n]);
    var t := LookupOf(entries);
    if j < n {
      assert entries[..n][j] == entries[j];
      LookupCovers(entries[..n], j);
      var k :| 0 <= k < |prev| && prev[k].name == entries[j].name.value;
      assert t[k] == prev[k];
    } else if HasName(prev, entries[j].name.value) {
      var k :| 0 <= k < |prev| && prev[k].name == entries[j].name.value;
      assert t[k] == prev[k];
    } else {
      assert t[|prev|].name == entries[j].name.value;
    }
  }

  /** Every table entry holds the fields of the first file entry with its name. */
  lemma {:induction false} LookupSound(entries: seq<LocationEntry>, k: nat)
    requires k < |LookupOf(entries)|
    ensures exists i :: 0 <= i < |entries| && FirstWithName(entries, i) &&
                        LookupOf(entries)[k] == Place(entries[i].name.value, entries[i].fields)
    decreases |entries|
  {
    var n := |entries| - 1;
    var prefix := entries[..n];
    var prev := LookupOf(prefix);
    var t := LookupOf(entries);
    if k < |prev| {
      LookupSound(prefix, k);
      var i :| 0 <= i < |prefix| && FirstWithName(prefix, i)
        && prev[k] == Place(prefix[i].name.value, prefix[i].fields);
      assert prefix[i] == entries[i];
      assert forall j :: 0 <= j < i ==> prefix[j] == entries[j];
      assert t[k] == prev[k];
      assert FirstWithName(entries, i);
    } else {
      var e := entries[n];
      assert t == prev + [Place(e.name.value, e.fields)];
      forall j | 0 <= j < n ensures entries[j].name != e.name {
        if entries[j].name == e.name {
          assert prefix[j] == entries[j];
          LookupCovers(prefix, j);
        }
      }
      assert FirstWithName(entries, n);
    }
  }

  /** The first file entry with a given non-empty name is the one the table keeps for that name. */
  lemma LookupFirstWins(entries: seq<LocationEntry>, i: nat)
    requires i < |entries| && FirstWithName(entries, i)
    ensures exists k :: 0 <= k < |LookupOf(entries)| &&
                        LookupOf(entries)[k] == Place(entries[i].name.value, entries[i].fields)
  {
    var t := LookupOf(entries);
    LookupCovers(entries, i);
    var k :| 0 <= k < |t| && t[k].name == entries[i].name.value;
    LookupSound(entries, k);
    var i' :| 0 <= i' < |entries| && FirstWithName(entries, i')
      && t[k] == Place(entries[i'].name.value, entries[i'].fields);
    assert entries[i'].name == entries[i].name;
    assert i' == i;
  }

  // ---------------------------------------------------------------- the join

  /** Table entry `k`'s name is non-empty and occurs in the scraped location. */
  predicate Occurs(t: seq<Place>, location: string, k: nat)
    requires k < |t|
  {
    t[k].name != "" && Contains(location, t[k].name)
  }

  /**
   * The index of the entry the join loop ends up with after scanning `t`
   * (all_classes.py:347-352, classes.py:301-306): a later entry replaces the
   * current one only when its name is strictly longer.
   */
  function BestIndex(t: seq<Place>, location: string): (r: Option<nat>)
    ensures r.Some? ==> r.value < |t|
  {
    if t == [] then None
    else
      var prev := BestIndex(t[..|t| - 1], location);
      var n := t[|t| - 1].name;
      var longest := if prev.Some? then |t[prev.value].name| else 0;
      if Contains(location, n) && |n| > longest then Some(|t| - 1) else prev
  }

  /** What the join copies onto the course: the chosen entry's fields, if any. */
  function BestFields(t: seq<Place>, location: string): Option<LocationFields> {
    match BestIndex(t, location)
    case None => None
    case Some(k) => Some(t[k].fields)
  }

  method BestMatch(t: seq<Place>, location: string) returns (best: Option<LocationFields>)
    ensures best == BestFields(t, location)
  {
    best := None;
    var longest := 0;
    for i := 0 to |t|
      invariant best == BestFields(t[..i], location)
      invariant longest == (match BestIndex(t[..i], location) case None => 0 case Some(k) => |t[k].name|)
    {
      assert t[..i + 1][..i] == t[..i];
      var place := t[i];
      if Contains(location, place.name) && |place.name| > longest {
        longest := |place.name|;
        best := Some(place.fields);
      }
    }
    assert t[..|t|] == t;
  }

  /**
   * The chosen entry's name occurs in the location and is of maximal length
   * among those that occur, and every earlier entry that occurs is strictly
   * shorter, so the first of the longest wins; nothing is chosen exactly when
   * no non-empty name occurs.
   */
  lemma {:induction false} BestIndexSpec(t: seq<Place>, location: string)
    ensures BestIndex(t, location).None? <==> forall k :: 0 <= k < |t| ==> !Occurs(t, location, k)
    ensures BestIndex(t, location).Some? ==>
      var b := BestIndex(t, location).value;
      Occurs(t, location, b)
      && (forall k :: 0 <= k < |t| && Occurs(t, location, k) ==> |t[k].name| <= |t[b].name|)
      && (forall k :: 0 <= k < b && Occurs(t, location, k) ==> |t[k].name| < |t[b].name|)
    decreases |t|
  {
    if t != [] {
      var n := |t| - 1;
      var p := t[..n];
      BestIndexSpec(p, location);
      assert forall k :: 0 <= k < n ==> p[k] == t[k];
      assert forall k :: 0 <= k < n ==> (Occurs(p, location, k) <==> Occurs(t, location, k));
      var prev := BestIndex(p, location);
      var longest := if prev.Some? then |t[prev.value].name| else 0;
      assert Occurs(t, location, n) <==> Contains(location, t[n].name) && |t[n].name| > 0;
      if Contains(location, t[n].name) && |t[n].name| > longest {
        assert BestIndex(t, location) == Some(n);
      } else {
        assert BestIndex(t, location) == prev;
        assert Occurs(t, location, n) ==> |t[n].name| <= longest;
      }
    }
  }
}

=== FILE: map_render.dfy ===
/**
 * The classification behind the course map (generate_map.py): the month
 * palette, each marker's colour, the legend's entries, and the locations that
 * only have past classes, with their start dates newest first. Drawing the
 * map itself is not modelled.
 */
module MapRender {
  import opened Wrappers
  import opened Strings
  import opened Records
  import opened Dates
  import opened Sorting

  // ---------------------------------------------------------------- palette

  /** The colours of January to December. */
  const Palette: seq<string> := ["#00008B", "#0000FF", "#ADD8E6", "#00FFFF", "#90EE90", "#FFFF00",
                                 "#FF0000", "#FF4500", "#FFA500", "#FA8072", "#87CEEB", "#0000CD"]
  const Gray := "#808080"
  const InactiveColor := "#000000"

  /** The palette dictionary, keyed by month number. */
  const MonthColors: map<int, string> := map m | 1 <= m <= 12 :: Palette[m - 1]

  datatype ColorAnswer = AllColors(colors: map<int, string>) | OneColor(color: string)

  /**
   * `get_month_color` (generate_map.py:15-39): the whole palette for `None`,
   * else the month's colour, gray for a number that is not a month.
   */
  function GetMonthColor(month: Option<int>): (r: ColorAnswer)
    ensures month.None? <==> r.AllColors?
    ensures r.AllColors? ==> (forall m :: m in r.colors <==> 1 <= m <= 12)
                             && forall m :: 1 <= m <= 12 ==> r.colors[m] == Palette[m - 1]
    ensures month.Some? && 1 <= month.value <= 12 ==> r == OneColor(Palette[month.value - 1])
    ensures month.Some? && !(1 <= month.value <= 12) ==> r == OneColor(Gray)
  {
    if month.None? then AllColors(MonthColors)
    else if month.value in MonthColors then OneColor(MonthColors[month.value])
    else OneColor(Gray)
  }

  /** The twelve month colours differ from each other, from the default gray and from the inactive black. */
  lemma PaletteDistinct()
    ensures forall i, j :: 0 <= i < j < 12 ==> Palette[i] != Palette[j]
    ensures forall i :: 0 <= i < 12 ==> Palette[i] != Gray && Palette[i] != InactiveColor
  {
    forall i, j | 0 <= i < j < 12 ensures Palette[i] != Palette[j] {
      assert i in {0, 1, 2, 3, 4, 5, 6, 7, 8, 9, 10};
      assert j in {1, 2, 3, 4, 5, 6, 7, 8, 9, 10, 11};
    }
  }

  // ---------------------------------------------------------------- markers

  /**
   * A current class's marker colour (generate_map.py:147-162): the colour of
   * the start date's month when the start date parses as `%m-%d-%Y`, else gray.
   */
  function MarkerColor(startDate: Option<string>): (r: string)
    ensures r == Gray || r in Palette
    ensures !Truthy(startDate) ==> r == Gray
    ensures Truthy(startDate) && ParseNumericDate(startDate.value).None? ==> r == Gray
    ensures Truthy(startDate) && ParseNumericDate(startDate.value).Some?
            ==> r == Palette[ParseNumericDate(startDate.value).value.month - 1]
  {
    if Truthy(startDate) then
      match ParseNumericDate(startDate.value)
      case Some(d) => GetMonthColor(Some(d.month)).color
      case None => Gray
    else Gray
  }

  /** The detail scraper's placeholder "N/A" for a missing start date gives a gray marker. */
  lemma MarkerColorPlaceholder()
    ensures MarkerColor(Some("N/A")) == Gray
  {
    NoDashNumericFails("N/A");
  }

  /** A date written out as `MM-DD-YYYY` colours its marker with its month's colour. */
  lemma MarkerColorOfDate(d: Date)
    requires ValidDate(d)
    ensures MarkerColor(Some(FormatMdy(d))) == Palette[d.month - 1]
  {
    assert FormatMdy(d) != "";
  }

  // ---------------------------------------------------------------- legend

  /**
   * The legend's entries (generate_map.py:252-288): "Inactive Classes" in
   * black, then each month in ascending numeric order with its colour.
   */
  method Legend() returns (entries: seq<(string, string)>)
    ensures |entries| == 13
    ensures entries[0] == (InactiveColor, "Inactive Classes")
    ensures forall m :: 1 <= m <= 12 ==> entries[m] == (Palette[m - 1], MonthNames[m - 1])
  {
    var colors := GetMonthColor(None).colors;
    entries := [(InactiveColor, "Inactive Classes")];
    for m := 1 to 13
      invariant |entries| == m
      invariant entries[0] == (InactiveColor, "Inactive Classes")
      invariant forall k :: 1 <= k < m ==> entries[k] == (Palette[k - 1], MonthNames[k - 1])
    {
      entries := entries + [(colors[m], MonthNames[m - 1])];
    }
  }

  // ---------------------------------------------------------------- inactive courses

  /** The non-empty display names of the current classes (generate_map.py:443-448). */
  function ActiveNames(current: seq<Course>): set<string> {
    set i | 0 <= i < |current| && Truthy(current[i].loc.displayName) :: current[i].loc.displayName.value
  }

  /** The non-empty ids of the current classes (generate_map.py:454-458). */
  function CurrentIds(current: seq<Course>): set<string> {
    set i | 0 <= i < |current| && Truthy(current[i].courseId) :: current[i].courseId.value
  }

  /** A record of the full dataset whose id is not a current id; a record without an id is never current. */
  predicate IsInactive(c: Course, ids: set<string>) {
    c.courseId.None? || c.courseId.value !in ids
  }

  function InactiveOf(all: seq<Course>, ids: set<string>): seq<Course> {
    if all == [] then []
    else (if IsInactive(all[0], ids) then [all[0]] else []) + InactiveOf(all[1..], ids)
  }

  /** The inactive records are exactly the dataset's records that are inactive. */
  lemma {:induction false} InactiveOfMembers(all: seq<Course>, ids: set<string>)
    ensures forall c :: c in InactiveOf(all, ids) <==> c in all && IsInactive(c, ids)
    ensures |InactiveOf(all, ids)| <= |all|
  {
    if all != [] {
      InactiveOfMembers(all[1..], ids);
      assert all == [all[0]] + all[1..];
    }
  }

  /** The selection keeps the dataset's order: selecting from two parts gives the selections in turn. */
  lemma {:induction false} InactiveOfAppend(a: seq<Course>, b: seq<Course>, ids: set<string>)
    ensures InactiveOf(a + b, ids) == InactiveOf(a, ids) + InactiveOf(b, ids)
  {
    if a != [] {
      InactiveOfAppend(a[1..], b, ids);
      assert (a + b)[1..] == a[1..] + b;
    } else {
      assert a + b == b;
    }
  }

  /** The loop collecting the records that are not current (generate_map.py:459-462). */
  method InactiveCourses(all: seq<Course>, ids: set<string>) returns (inactive: seq<Course>)
    ensures inactive == InactiveOf(all, ids)
  {
    inactive := [];
    for i := 0 to |all|
      invariant inactive == InactiveOf(all[..i], ids)
    {
      InactiveOfAppend(all[..i], [all[i]], ids);
      assert all[..i + 1] == all[..i] + [all[i]];
      if all[i].courseId.None? || all[i].courseId.value !in ids {
        inactive := inactive + [all[i]];
      }
    }
    assert all[..|all|] == all;
  }

  // ---------------------------------------------------------------- inactive locations

  /** A location with only past classes: the coordinates of its first record and its distinct start dates. */
  datatype Group = Group(latLong: Option<string>, startDates: seq<string>)

  /** Whether a record takes part in the grouping: its display name is non-empty and has no current class. */
  predicate Groupable(c: Course, active: set<string>) {
    Truthy(c.loc.displayName) && c.loc.displayName.value !in active
  }

  /** The groups after the loop has seen `inactive` (generate_map.py:466-499). */
  function GroupsOf(inactive: seq<Course>, active: set<string>): map<string, Group> {
    if inactive == [] then map[]
    else
      var prev := GroupsOf(inactive[..|inactive| - 1], active);
      var c := inactive[|inactive| - 1];
      if !Groupable(c, active) then prev
      else
        var name := c.loc.displayName.value;
        if name !in prev then
          prev[name := Group(c.loc.latitudeLongitude, if Truthy(c.startDate) then [c.startDate.value] else [])]
        else if Truthy(c.startDate) && c.startDate.value !in prev[name].startDates then
          prev[name := prev[name].(startDates := prev[name].startDates + [c.startDate.value])]
        else prev
  }

  method GroupInactive(inactive: seq<Course>, active: set<string>) returns (groups: map<string, Group>)
    ensures groups == GroupsOf(inactive, active)
  {
    groups := map[];
    for i := 0 to |inactive|
      invariant groups == GroupsOf(inactive[..i], active)
    {
      assert inactive[..i + 1][..i] == inactive[..i];
      var c := inactive[i];
      var name := c.loc.displayName;
      if name.None? || name.value == "" {
        continue;
      }
      if name.value in active {
        continue;
      }
      var startDate := c.startDate;
      if name.value !in groups {
        groups := groups[name.value := Group(c.loc.latitudeLongitude,
                                             if startDate.Some? && startDate.value != "" then [startDate.value] else [])];
      } else if startDate.Some? && startDate.value != "" && startDate.value !in groups[name.value].startDates {
        groups := groups[name.value := groups[name.value].(startDates := groups[name.value].startDates + [startDate.value])];
      }
    }
    assert inactive[..|inactive|] == inactive;
  }

  /** A location is grouped exactly when some record groups under its name. */
  lemma {:induction false} GroupsKeys(inactive: seq<Course>, active: set<string>, n: string)
    ensures n in GroupsOf(inactive, active)
            <==> exists i :: 0 <= i < |inactive| && Groupable(inactive[i], active)
                             && inactive[i].loc.displayName == Some(n)
    decreases |inactive|
  {
    if inactive != [] {
      var k := |inactive| - 1;
      GroupsKeys(inactive[..k], active, n);
      assert forall i :: 0 <= i < k ==> inactive[..k][i] == inactive[i];
    }
  }

  /** A group's coordinates are those of the first record grouped under its name. */
  lemma {:induction false} GroupLatLong(inactive: seq<Course>, active: set<string>, n: string)
    requires n in GroupsOf(inactive, active)
    ensures exists i :: 0 <= i < |inactive| && Groupable(inactive[i], active)
                        && inactive[i].loc.displayName == Some(n)
                        && GroupsOf(inactive, active)[n].latLong == inactive[i].loc.latitudeLongitude
                        && forall j :: 0 <= j < i ==> !(Groupable(inactive[j], active) && inactive[j].loc.displayName == Some(n))
    decreases |inactive|
  {
    var k := |inactive| - 1;
    var prefix := inactive[..k];
    assert forall i :: 0 <= i < k ==> prefix[i] == inactive[i];
    if n in GroupsOf(prefix, active) {
      GroupLatLong(prefix, active, n);
      var i :| 0 <= i < k && Groupable(prefix[i], active) && prefix[i].loc.displayName == Some(n)
               && GroupsOf(prefix, active)[n].latLong == prefix[i].loc.latitudeLongitude
               && forall j :: 0 <= j < i ==> !(Groupable(prefix[j], active) && prefix[j].loc.displayName == Some(n));
      assert inactive[i] == prefix[i];
    } else {
      GroupsKeys(prefix, active, n);
    }
  }

  /** The dates a record contributes to its group: its start date, when non-empty. */
  predicate DateOf(c: Course, n: string, d: string, active: set<string>) {
    Groupable(c, active) && c.loc.displayName == Some(n) && c.startDate == Some(d) && d != ""
  }

  /**
   * A group's start dates hold no empty entry and no duplicate, and are
   * exactly the non-empty start dates of the records grouped under its name.
   */
  lemma {:induction false} GroupDates(inactive: seq<Course>, active: set<string>, n: string)
    requires n in GroupsOf(inactive, active)
    ensures var ds := GroupsOf(inactive, active)[n].startDates;
            (forall i, j :: 0 <= i < j < |ds| ==> ds[i] != ds[j])
            && (forall d :: d in ds ==> d != "")
            && (forall d :: d in ds <==> exists i :: 0 <= i < |inactive| && DateOf(inactive[i], n, d, active))
    decreases |inactive|
  {
    var k := |inactive| - 1;
    var prefix := inactive[..k];
    assert forall i :: 0 <= i < k ==> prefix[i] == inactive[i];
    if n in GroupsOf(prefix, active) {
      GroupDates(prefix, active, n);
    } else {
      GroupsKeys(prefix, active, n);
    }
  }

  // ---------------------------------------------------------------- start-date order

  /** A parsed date as a number that orders dates chronologically. */
  function DateKey(s: string): int {
    match ParseNumericDate(s)
    case Some(d) => d.year * 10000 + d.month * 100 + d.day
    case None => 0
  }

  /** `reverse=True` on the parsed dates: a newer date, or the same date, may come first. */
  predicate NewerFirst(a: string, b: string) {
    DateKey(a) >= DateKey(b)
  }

  /**
   * The in-place sort of one group's dates (generate_map.py:509-519): newest
   * first when every date parses as `%m-%d-%Y`; otherwise the key function
   * raises before anything moves and the list stays as it was.
   */
  function SortStartDates(dates: seq<string>): (r: seq<string>)
    ensures multiset(r) == multiset(dates)
  {
    if forall i :: 0 <= i < |dates| ==> ParseNumericDate(dates[i]).Some? then SortBy(dates, NewerFirst)
    else dates
  }

  lemma SortStartDatesSpec(dates: seq<string>)
    ensures (forall i :: 0 <= i < |dates| ==> ParseNumericDate(dates[i]).Some?) ==>
              forall i, j :: 0 <= i < j < |SortStartDates(dates)|
                             ==> DateKey(SortStartDates(dates)[i]) >= DateKey(SortStartDates(dates)[j])
    ensures (exists i :: 0 <= i < |dates| && ParseNumericDate(dates[i]).None?) ==> SortStartDates(dates) == dates
  {
    assert Total(NewerFirst) && Transitive(NewerFirst);
    SortBySorted(dates, NewerFirst);
    var r := SortBy(dates, NewerFirst);
    forall i, j | 0 <= i < j < |r| ensures NewerFirst(r[i], r[j]) {
    }
  }

  /** The loop sorting every group's dates in place. */
  method SortAllStartDates(groups: map<string, Group>) returns (sorted: map<string, Group>)
    ensures sorted.Keys == groups.Keys
    ensures forall n :: n in groups ==> sorted[n] == groups[n].(startDates := SortStartDates(groups[n].startDates))
  {
    sorted := groups;
    var todo := groups.Keys;
    while todo != {}
      invariant todo <= groups.Keys && sorted.Keys == groups.Keys
      invariant forall n :: n in todo ==> sorted[n] == groups[n]
      invariant forall n :: n in groups && n !in todo
                            ==> sorted[n] == groups[n].(startDates := SortStartDates(groups[n].startDates))
      decreases |todo|
    {
      var n :| n in todo;
      var details := sorted[n];
      if details.startDates != [] {
        sorted := sorted[n := details.(startDates := SortStartDates(details.startDates))];
      }
      todo := todo - {n};
    }
  }
  // ---------------------------------------------------------------- the main block

  /**
   * The inactive-location data handed to the map (generate_map.py:443-519):
   * a location appears exactly when a record of the full dataset that is not
   * current carries its non-empty display name and no current class does;
   * its dates are then sorted newest first.
   */
  method InactiveLocations(all: seq<Course>, current: seq<Course>) returns (groups: map<string, Group>)
    ensures forall n :: n in groups <==>
                          exists c :: c in all && IsInactive(c, CurrentIds(current))
                                      && Groupable(c, ActiveNames(current)) && c.loc.displayName == Some(n)
    ensures var g := GroupsOf(InactiveOf(all, CurrentIds(current)), ActiveNames(current));
            groups.Keys == g.Keys
            && forall n :: n in g ==> groups[n] == g[n].(startDates := SortStartDates(g[n].startDates))
  {
    var active := ActiveNames(current);
    var ids := CurrentIds(current);
    var inactive := InactiveCourses(all, ids);
    var grouped := GroupInactive(inactive, active);
    groups := SortAllStartDates(grouped);
    InactiveOfMembers(all, ids);
    forall n ensures n in groups <==> exists c :: c in all && IsInactive(c, ids)
                                                 && Groupable(c, active) && c.loc.displayName == Some(n)
    {
      GroupsKeys(inactive, active, n);
      if exists c :: c in all && IsInactive(c, ids) && Groupable(c, active) && c.loc.displayName == Some(n) {
        var c :| c in all && IsInactive(c, ids) && Groupable(c, active) && c.loc.displayName == Some(n);
        assert c in inactive;
        var i :| 0 <= i < |inactive| && inactive[i] == c;
      }
    }
  }
}

=== FILE: records.dfy ===
/**
 * The JSON records the scrapers write and the map generator reads. Every key is
 * read with `dict.get`, so a key that is missing and a key holding `null` are
 * both `None`; every value the model looks at is a string.
 */
module Records {
  import opened Wrappers

  /** The ten `location*` keys of a course record, as copied from a location table entry. */
  datatype LocationFields = LocationFields(
    urlId: Option<string>,
    regionId: Option<string>,
    servedBy: Option<string>,
    servedByUrl: Option<string>,
    websiteAddress: Option<string>,
    formattedAddress: Option<string>,
    latitudeLongitude: Option<string>,
    displayName: Option<string>,
    googleMapsUrl: Option<string>,
    googleMapsDirectionsUrl: Option<string>)

  /** The location fields of a record that no table entry was matched to. */
  const NoLocation: LocationFields :=
    LocationFields(None, None, None, None, None, None, None, None, None, None)

  /**
   * One object of the locations file: its `location` key (the canonical name)
   * and the values of `urlId`, `id`, `servedBy`, `servedByUrl`, `websiteAddress`,
   * `formattedAddress`, `locationLatitudeLongitude`, `displayName`,
   * `googleMapsUrl` and `googleMapsDirectionsUrl`, in the order of LocationFields.
   */
  datatype LocationEntry = LocationEntry(name: Option<string>, fields: LocationFields)

  /** A course record, as written by either scraper. */
  datatype Course = Course(
    courseId: Option<string>,
    courseUrl: Option<string>,
    registerLink: Option<string>,
    classUrl: Option<string>,
    startDate: Option<string>,
    endDate: Option<string>,
    firstClassTime: Option<string>,
    days: Option<string>,
    registrationOpens: Option<string>,
    registrationCloses: Option<string>,
    location: Option<string>,
    instructionalHours: Option<string>,
    coordinateBy: Option<string>,
    contact: Option<string>,
    loc: LocationFields,
    currentDate: Option<string>)

  /** Python truthiness of an optional string: present and non-empty. */
  predicate Truthy(o: Option<string>) {
    o.Some? && o.value != ""
  }
}

=== FILE: searching.dfy ===
/**
 * The scans the scrapers run over a heading's children: keep the first, or
 * the last, value a selector picks out of the elements.
 */
module Searching {
  import opened Wrappers

  /** The first value `f` picks along `xs` (a loop that breaks at the first hit). */
  function FirstSome<T, U>(xs: seq<T>, f: T -> Option<U>): Option<U> {
    if xs == [] then None
    else if f(xs[0]).Some? then f(xs[0])
    else FirstSome(xs[1..], f)
  }

  /** The last value `f` picks along `xs` (a loop that overwrites, or appends and takes `[-1]`). */
  function LastSome<T, U>(xs: seq<T>, f: T -> Option<U>): Option<U> {
    if xs == [] then None
    else if f(xs[|xs| - 1]).Some? then f(xs[|xs| - 1])
    else LastSome(xs[..|xs| - 1], f)
  }

  /** Nothing is picked exactly when `f` picks nothing anywhere; otherwise the pick of the first element `f` picks from. */
  lemma {:induction false} FirstSomeSpec<T, U>(xs: seq<T>, f: T -> Option<U>)
    ensures FirstSome(xs, f).None? <==> forall i :: 0 <= i < |xs| ==> f(xs[i]).None?
    ensures FirstSome(xs, f).Some? ==>
              exists i :: 0 <= i < |xs| && f(xs[i]) == FirstSome(xs, f)
                          && forall j :: 0 <= j < i ==> f(xs[j]).None?
  {
    if xs != [] && f(xs[0]).None? {
      var tail := xs[1..];
      FirstSomeSpec(tail, f);
      assert forall i :: 1 <= i < |xs| ==> tail[i - 1] == xs[i];
      if FirstSome(xs, f).Some? {
        var i :| 0 <= i < |tail| && f(tail[i]) == FirstSome(tail, f)
                 && forall j :: 0 <= j < i ==> f(tail[j]).None?;
        assert xs[i + 1] == tail[i];
      }
    }
  }

  /** Nothing is picked exactly when `f` picks nothing anywhere; otherwise the pick of the last element `f` picks from. */
  lemma {:induction false} LastSomeSpec<T, U>(xs: seq<T>, f: T -> Option<U>)
    ensures LastSome(xs, f).None? <==> forall i :: 0 <= i < |xs| ==> f(xs[i]).None?
    ensures LastSome(xs, f).Some? ==>
              exists i :: 0 <= i < |xs| && f(xs[i]) == LastSome(xs, f)
                          && forall j :: i < j < |xs| ==> f(xs[j]).None?
  {
    if xs != [] && f(xs[|xs| - 1]).None? {
      var n := |xs| - 1;
      var init := xs[..n];
      LastSomeSpec(init, f);
      assert forall i :: 0 <= i < n ==> init[i] == xs[i];
      if LastSome(xs, f).Some? {
        var i :| 0 <= i < n && f(init[i]) == LastSome(init, f)
                 && forall j :: i < j < n ==> f(init[j]).None?;
        assert xs[i] == init[i];
      }
    }
  }
}

=== FILE: sorting.dfy ===
/**
 * Python's `sorted(xs, key=...)` and `xs.sort(key=..., reverse=...)`, which the
 * scripts use to order saved records and a location's past start dates. The
 * order is given as a total preorder `le` ("may come before"); the sort is an
 * insertion sort that puts an element before the first one it may precede,
 * so elements that compare equal keep their input order, as Python's do.
 */
module Sorting {

  ghost predicate Total<T(!new)>(le: (T, T) -> bool) {
    forall a, b :: le(a, b) || le(b, a)
  }

  ghost predicate Transitive<T(!new)>(le: (T, T) -> bool) {
    forall a, b, c :: le(a, b) && le(b, c) ==> le(a, c)
  }

  /** Every element may come before every later one. */
  predicate SortedBy<T>(s: seq<T>, le: (T, T) -> bool) {
    forall i, j :: 0 <= i < j < |s| ==> le(s[i], s[j])
  }

  function Insert<T>(x: T, s: seq<T>, le: (T, T) -> bool): (r: seq<T>)
    ensures multiset(r) == multiset(s) + multiset{x}
  {
    if s == [] then [x]
    else if le(x, s[0]) then [x] + s
    else
      assert s == [s[0]] + s[1..];
      [s[0]] + Insert(x, s[1..], le)
  }

  function SortBy<T>(s: seq<T>, le: (T, T) -> bool): (r: seq<T>)
    ensures multiset(r) == multiset(s)
  {
    if s == [] then []
    else
      assert s == [s[0]] + s[1..];
      Insert(s[0], SortBy(s[1..], le), le)
  }

  lemma {:induction false} InsertSorted<T(!new)>(x: T, s: seq<T>, le: (T, T) -> bool)
    requires Total(le) && Transitive(le)
    requires SortedBy(s, le)
    ensures SortedBy(Insert(x, s, le), le)
  {
    if s == [] {
    } else if le(x, s[0]) {
      var r := [x] + s;
      forall i, j | 0 <= i < j < |r| ensures le(r[i], r[j]) {
        if i > 0 {
          assert r[i] == s[i - 1] && r[j] == s[j - 1];
        } else {
          assert r[j] == s[j - 1];
          assert j - 1 == 0 || le(s[0], s[j - 1]);
        }
      }
    } else {
      var t := Insert(x, s[1..], le);
      InsertSorted(x, s[1..], le);
      assert le(s[0], x);
      forall k | 0 <= k < |t| ensures le(s[0], t[k]) {
        assert t[k] in multiset(t);
        if t[k] != x {
          assert t[k] in multiset(s[1..]);
          var j :| 0 <= j < |s[1..]| && s[1..][j] == t[k];
          assert t[k] == s[j + 1];
        }
      }
      var r := [s[0]] + t;
      forall i, j | 0 <= i < j < |r| ensures le(r[i], r[j]) {
        if i > 0 {
          assert r[i] == t[i - 1] && r[j] == t[j - 1];
        } else {
          assert r[j] == t[j - 1];
        }
      }
    }
  }

  /** The sort's result is ordered; with the multiset ensures of SortBy it is a sorted permutation. */
  lemma {:induction false} SortBySorted<T(!new)>(s: seq<T>, le: (T, T) -> bool)
    requires Total(le) && Transitive(le)
    ensures SortedBy(SortBy(s, le), le)
    ensures |SortBy(s, le)| == |s|
  {
    if s != [] {
      SortBySorted(s[1..], le);
      InsertSorted(s[0], SortBy(s[1..], le), le);
    }
    assert |multiset(SortBy(s, le))| == |multiset(s)|;
  }

  /** The elements of `s` that compare equal to `x` under `le`, in their order in `s`. */
  function Ties<T>(s: seq<T>, x: T, le: (T, T) -> bool): seq<T> {
    if s == [] then []
    else (if le(x, s[0]) && le(s[0], x) then [s[0]] else []) + Ties(s[1..], x, le)
  }

  /** The tie of a list's head comes before the ties of its tail. */
  lemma TiesCons<T>(h: T, t: seq<T>, x: T, le: (T, T) -> bool)
    ensures Ties([h] + t, x, le) == (if le(x, h) && le(h, x) then [h] else []) + Ties(t, x, le)
  {
    var r := [h] + t;
    assert r[0] == h && r[1..] == t;
  }

  /** Under a transitive order, `y` and `h` cannot both tie with `x` when `y` may not precede `h`. */
  lemma TiesSwap<T>(y: T, h: T, rest: seq<T>, x: T, le: (T, T) -> bool)
    requires le(y, x) && le(x, h) ==> le(y, h)
    requires !le(y, h)
    ensures var tieY := if le(x, y) && le(y, x) then [y] else [];
            var tieH := if le(x, h) && le(h, x) then [h] else [];
            tieH + (tieY + rest) == tieY + (tieH + rest)
  {
  }

  /** Inserting `y` puts it ahead of every element that compares equal to it. */
  lemma {:induction false} InsertTies<T(!new)>(y: T, s: seq<T>, x: T, le: (T, T) -> bool)
    requires Transitive(le)
    ensures Ties(Insert(y, s, le), x, le) == (if le(x, y) && le(y, x) then [y] else []) + Ties(s, x, le)
  {
    if s != [] {
      var h, tail := s[0], s[1..];
      assert s == [h] + tail;
      TiesCons(h, tail, x, le);
      if le(y, h) {
        TiesCons(y, s, x, le);
      } else {
        InsertTies(y, tail, x, le);
        TiesCons(h, Insert(y, tail, le), x, le);
        TiesSwap(y, h, Ties(tail, x, le), x, le);
      }
    }
  }

  /** The sort is stable: elements that compare equal keep their input order. */
  lemma {:induction false} SortByStable<T(!new)>(s: seq<T>, x: T, le: (T, T) -> bool)
    requires Total(le) && Transitive(le)
    ensures Ties(SortBy(s, le), x, le) == Ties(s, x, le)
  {
    if s != [] {
      SortByStable(s[1..], x, le);
      InsertTies(s[0], SortBy(s[1..], le), x, le);
    }
  }
}

=== FILE: strings.dfy ===
/**
 * The parts of Python's `str` that the scrapers rely on: `isspace`, `strip`,
 * `split`, `join`, `splitlines`, `replace`, `lower`, `startswith` and `in`.
 */
module Strings {

  /** Python's `str.isspace()`; also the set that `strip()` removes and that the regex class `\s` matches. */
  predicate IsSpace(c: char) {
    var n := c as int;
    (0x09 <= n <= 0x0D) || (0x1C <= n <= 0x20) || n == 0x85 || n == 0xA0 || n == 0x1680
    || (0x2000 <= n <= 0x200A) || n == 0x2028 || n == 0x2029 || n == 0x202F || n == 0x205F
    || n == 0x3000
  }

  /** The line boundaries of `str.splitlines()`. */
  predicate IsLineBreak(c: char) {
    var n := c as int;
    (0x0A <= n <= 0x0D) || (0x1C <= n <= 0x1E) || n == 0x85 || n == 0x2028 || n == 0x2029
  }

  /** The regex class `\d`, restricted to ASCII digits. */
  predicate IsDigit(c: char) {
    '0' <= c <= '9'
  }

  const Nbsp: char := '\U{A0}'

  predicate NoLineBreak(s: string) {
    forall k :: 0 <= k < |s| ==> !IsLineBreak(s[k])
  }

  predicate AllSpace(w: string) {
    forall k :: 0 <= k < |w| ==> IsSpace(w[k])
  }

  /** Neither end of `s` is whitespace: `s` is a fixed point of `strip()`. */
  predicate IsStripped(s: string) {
    s == [] || (!IsSpace(s[0]) && !IsSpace(s[|s| - 1]))
  }

  /** `s.lstrip()` */
  function TrimStart(s: string): (r: string)
    ensures |r| <= |s| && r == s[|s| - |r|..]
    ensures r == [] || !IsSpace(r[0])
    ensures forall k :: 0 <= k < |s| - |r| ==> IsSpace(s[k])
  {
    if s != [] && IsSpace(s[0]) then TrimStart(s[1..]) else s
  }

  /** `s.rstrip()` */
  function TrimEnd(s: string): (r: string)
    ensures |r| <= |s| && r == s[..|r|]
    ensures r == [] || !IsSpace(r[|r| - 1])
    ensures forall k :: |r| <= k < |s| ==> IsSpace(s[k])
  {
    if s != [] && IsSpace(s[|s| - 1]) then TrimEnd(s[..|s| - 1]) else s
  }

  /** `s.strip()` */
  function Strip(s: string): (r: string)
    ensures IsStripped(r)
    ensures |r| <= |s|
  {
    TrimEnd(TrimStart(s))
  }

  /** `strip()` keeps a contiguous slice of its argument. */
  lemma StripIsSlice(s: string)
    ensures var i := |s| - |TrimStart(s)|;
      i + |Strip(s)| <= |s| && Strip(s) == s[i..i + |Strip(s)|]
  {
  }

  lemma StripStripped(s: string)
    requires IsStripped(s)
    ensures Strip(s) == s
  {
  }

  /** Python's `sub in s`. */
  predicate Contains(s: string, sub: string) {
    exists i :: 0 <= i <= |s| - |sub| && sub <= s[i..]
  }

  lemma ContainsAt(s: string, sub: string, i: nat)
    requires i + |sub| <= |s| && s[i..i + |sub|] == sub
    ensures Contains(s, sub)
  {
    assert sub <= s[i..];
  }

  /** `s.startswith(p)` */
  predicate StartsWith(s: string, p: string) {
    p <= s
  }

  /** `str.lower()` on ASCII letters; other characters are left as they are. */
  function LowerChar(c: char): char {
    if 'A' <= c <= 'Z' then (c as int + 32) as char else c
  }

  function Lower(s: string): (r: string)
    ensures |r| == |s|
    ensures forall k :: 0 <= k < |s| ==> r[k] == LowerChar(s[k])
  {
    seq(|s|, k requires 0 <= k < |s| => LowerChar(s[k]))
  }

  /** `a.lower() == b.lower()` */
  predicate EqualsIgnoreCase(a: string, b: string) {
    Lower(a) == Lower(b)
  }

  /** The lower-case word `w` occurs in `s` at `i`, ignoring case (the regex flag IGNORECASE). */
  predicate WordAtIgnoreCase(s: string, i: nat, w: string) {
    i + |w| <= |s| && Lower(s[i..i + |w|]) == w
  }

  /** The first index of `c` in `s`, or `|s|`. */
  function IndexOf(s: string, c: char): (i: nat)
    ensures i <= |s|
    ensures i < |s| ==> s[i] == c
    ensures forall k :: 0 <= k < i ==> s[k] != c
  {
    if s == [] then 0 else if s[0] == c then 0 else 1 + IndexOf(s[1..], c)
  }

  /** The end of the run of whitespace that starts at `i` (the greedy `\s*` at `i`). */
  function SpaceRunEnd(s: string, i: nat): (j: nat)
    requires i <= |s|
    ensures i <= j <= |s|
    ensures forall k :: i <= k < j ==> IsSpace(s[k])
    ensures j == |s| || !IsSpace(s[j])
    decreases |s| - i
  {
    if i < |s| && IsSpace(s[i]) then SpaceRunEnd(s, i + 1) else i
  }

  lemma SpaceRunEndAt(s: string, i: nat, j: nat)
    requires i <= j <= |s|
    requires forall k :: i <= k < j ==> IsSpace(s[k])
    requires j == |s| || !IsSpace(s[j])
    ensures SpaceRunEnd(s, i) == j
    decreases j - i
  {
    if i < j { SpaceRunEndAt(s, i + 1, j); }
  }

  lemma NotInAppend(a: string, b: string, c: char)
    requires c !in a && c !in b
    ensures c !in a + b
  {
  }

  lemma ConsAppend(x: string, t: string)
    requires x != []
    ensures [x[0]] + (x[1..] + t) == x + t
  {
  }

  /** `s.split(sep)` for a one-character separator. */
  function Split(s: string, sep: char): (parts: seq<string>)
    ensures |parts| >= 1
    ensures forall p :: p in parts ==> sep !in p
    decreases |s|
  {
    var i := IndexOf(s, sep);
    if i == |s| then [s] else [s[..i]] + Split(s[i + 1..], sep)
  }

  /** `sep.join(parts)` */
  function Join(parts: seq<string>, sep: string): string {
    if |parts| == 0 then ""
    else if |parts| == 1 then parts[0]
    else parts[0] + sep + Join(parts[1..], sep)
  }

  /** Joining the pieces of a split with the separator gives back the string. */
  lemma {:induction false} JoinSplit(s: string, sep: char)
    ensures Join(Split(s, sep), [sep]) == s
    decreases |s|
  {
    var i := IndexOf(s, sep);
    if i < |s| {
      var rest := s[i + 1..];
      var parts := Split(s, sep);
      JoinSplit(rest, sep);
      assert parts == [s[..i]] + Split(rest, sep);
      assert parts[0] == s[..i] && parts[1..] == Split(rest, sep);
      assert Join(parts, [sep]) == s[..i] + [sep] + Join(Split(rest, sep), [sep]);
      assert s == s[..i] + [sep] + rest;
    }
  }

  /** Splitting pieces that do not contain the separator, once joined with it, gives back the pieces. */
  lemma {:induction false} SplitJoin(parts: seq<string>, sep: char)
    requires |parts| >= 1
    requires forall p :: p in parts ==> sep !in p
    ensures Split(Join(parts, [sep]), sep) == parts
    decreases |parts|
  {
    if |parts| == 1 {
      IndexOfAbsent(parts[0], sep);
    } else {
      SplitCons(parts[0], sep, Join(parts[1..], [sep]));
      SplitJoin(parts[1..], sep);
      assert parts == [parts[0]] + parts[1..];
    }
  }

  /** A separator-free piece, the separator, then the rest: the piece is the first part. */
  lemma SplitCons(p: string, sep: char, rest: string)
    requires sep !in p
    ensures Split(p + [sep] + rest, sep) == [p] + Split(rest, sep)
  {
    var s := p + [sep] + rest;
    IndexOfAfter(p, sep, rest);
    assert s[..|p|] == p;
    assert s[|p| + 1..] == rest;
  }

  lemma IndexOfAbsent(s: string, c: char)
    requires c !in s
    ensures IndexOf(s, c) == |s|
  {
  }

  lemma {:induction false} IndexOfAfter(p: string, c: char, rest: string)
    requires c !in p
    ensures IndexOf(p + [c] + rest, c) == |p|
  {
    var s := p + [c] + rest;
    var i := IndexOf(s, c);
    assert s[|p|] == c;
    assert forall k :: 0 <= k < |p| ==> s[k] == p[k];
  }

  /** The first line boundary in `s`, or `|s|`. */
  function LineBreakIndex(s: string): (i: nat)
    ensures i <= |s|
    ensures i < |s| ==> IsLineBreak(s[i])
    ensures forall k :: 0 <= k < i ==> !IsLineBreak(s[k])
  {
    if s == [] then 0 else if IsLineBreak(s[0]) then 0 else 1 + LineBreakIndex(s[1..])
  }

  /** `s.splitlines()`: `\r\n` is one boundary and a final boundary adds no empty line. */
  function SplitLines(s: string): (lines: seq<string>)
    ensures forall l :: l in lines ==> NoLineBreak(l)
    decreases |s|
  {
    if s == [] then []
    else
      var i := LineBreakIndex(s);
      if i == |s| then [s]
      else
        var next := if s[i] == '\r' && i + 1 < |s| && s[i + 1] == '\n' then i + 2 else i + 1;
        [s[..i]] + SplitLines(s[next..])
  }

  /** `s.replace(old, new)` for a one-character `old` and `new`. */
  function ReplaceChar(s: string, from: char, to: char): (r: string)
    ensures |r| == |s|
    ensures forall k :: 0 <= k < |s| ==> r[k] == (if s[k] == from then to else s[k])
  {
    seq(|s|, k requires 0 <= k < |s| => if s[k] == from then to else s[k])
  }

  lemma ReplaceCharAbsent(s: string, from: char, to: char)
    requires from !in s
    ensures ReplaceChar(s, from, to) == s
  {
  }

  /** `s.replace(pat, rep)`: occurrences are replaced left to right without overlapping. */
  function Replace(s: string, pat: string, rep: string): string
    requires pat != []
    decreases |s|
  {
    if s == [] then []
    else if pat <= s then rep + Replace(s[|pat|..], pat, rep)
    else [s[0]] + Replace(s[1..], pat, rep)
  }
  /** Python's `a <= b` on strings: code-point lexicographic order. */
  predicate LexLe(a: string, b: string)
    decreases |a|
  {
    if a == [] then true
    else if b == [] then false
    else if a[0] != b[0] then a[0] < b[0]
    else LexLe(a[1..], b[1..])
  }

  lemma {:induction false} LexLeTotal(a: string, b: string)
    ensures LexLe(a, b) || LexLe(b, a)
    decreases |a|
  {
    if a != [] && b != [] && a[0] == b[0] {
      LexLeTotal(a[1..], b[1..]);
    }
  }

  lemma {:induction false} LexLeTransitive(a: string, b: string, c: string)
    requires LexLe(a, b) && LexLe(b, c)
    ensures LexLe(a, c)
    decreases |a|
  {
    if a != [] && b != [] && c != [] && a[0] == b[0] && b[0] == c[0] {
      LexLeTransitive(a[1..], b[1..], c[1..]);
    }
  }

  lemma {:induction false} LexLeAntisymmetric(a: string, b: string)
    requires LexLe(a, b) && LexLe(b, a)
    ensures a == b
    decreases |a|
  {
    if a != [] {
      LexLeAntisymmetric(a[1..], b[1..]);
      assert a == [a[0]] + a[1..];
      assert b == [b[0]] + b[1..];
    }
  }

  /** A proper prefix comes first, and otherwise the first differing character decides. */
  lemma {:induction false} LexLeMeaning(a: string, b: string, k: nat)
    requires k <= |a| && k <= |b| && a[..k] == b[..k]
    ensures k == |a| ==> LexLe(a, b)
    ensures k < |a| && k < |b| && a[k] != b[k] ==> (LexLe(a, b) <==> a[k] < b[k])
    decreases k
  {
    if k > 0 {
      assert a[0] == b[0] by { assert a[..k][0] == b[..k][0]; }
      assert a[1..][..k - 1] == a[..k][1..];
      assert b[1..][..k - 1] == b[..k][1..];
      LexLeMeaning(a[1..], b[1..], k - 1);
    }
  }
  /** `s.rstrip(c)` for one character `c`. */
  function TrimEndChar(s: string, c: char): (r: string)
    ensures |r| <= |s| && r == s[..|r|]
    ensures r == [] || r[|r| - 1] != c
    ensures forall k :: |r| <= k < |s| ==> s[k] == c
  {
    if s != [] && s[|s| - 1] == c then TrimEndChar(s[..|s| - 1], c) else s
  }

  lemma IndexOfPrefix(a: string, t: string, c: char)
    requires IndexOf(a, c) < |a|
    ensures IndexOf(a + t, c) == IndexOf(a, c)
  {
    var i := IndexOf(a, c);
    assert (a + t)[i] == c;
  }

  /** Splitting at a separator splits both sides. */
  lemma {:induction false} SplitAppend(a: string, sep: char, b: string)
    ensures Split(a + [sep] + b, sep) == Split(a, sep) + Split(b, sep)
    decreases |a|
  {
    var s := a + [sep] + b;
    var i := IndexOf(a, sep);
    if i == |a| {
      IndexOfAbsent(a, sep);
      assert sep !in a;
      IndexOfAfter(a, sep, b);
      assert s[..|a|] == a && s[|a| + 1..] == b;
    } else {
      IndexOfPrefix(a, [sep] + b, sep);
      assert a + [sep] + b == a + ([sep] + b);
      assert s[..i] == a[..i];
      assert s[i + 1..] == a[i + 1..] + [sep] + b;
      SplitAppend(a[i + 1..], sep, b);
    }
  }
}

=== FILE: wrappers.dfy ===
/** The optional value used wherever the scripts store `None` or leave a key out. */
module Wrappers {

  datatype Option<+T> = None | Some(value: T) {

    /** The value, or `default` when there is none (Python's `x if x is not None else default`). */
    function GetOr(default: T): T {
      match this
      case Some(v) => v
      case None => default
    }
  }

  /** The outcome of code that may raise: a value, or the exception it raises. */
  datatype Result<+T> = Success(value: T) | Failure(error: string)
}
